=== FILE: README.md ===
# Student grade analyzer — a Dafny model

The analyzer reads a directory of student files. Each file is named
`<surname> <name> <patronymic>.txt`, and each of its lines reads
`<subject> - <grade>`. From these the analyzer computes:

- the average grade per subject over all students;
- the best students, i.e. everyone whose personal average equals the highest;
- the worst students, i.e. everyone whose personal average equals the lowest.

This project models the pure core of that program as immutable datatypes and
functions, and proves what the code promises about them.

| module (file) | what it models |
|---|---|
| `Outcomes` (outcomes.dfy) | `Option` and `Result` |
| `Sequences` (sequences.dfy) | mapping a function over a sequence and keeping the present values; small sequence and multiset facts |
| `Whitespace` (whitespace.dfy) | Java `String.trim()` (strips every char up to U+0020) and `split("\\s+")` (`Pattern.split` semantics), with a word-list reference definition |
| `Strings` (strings.dfy) | `contains`, `endsWith`, `lastIndexOf`, `replace(pat, "")`, and `equalsIgnoreCase` |
| `IntParsing` (int_parsing.dfy) | `Integer.parseInt` and `Integer.toString` on 32-bit ints |
| `FileValidator` (file_validator.dfy) | `isValidFullName` and `isValidGrade` |
| `StudentModel` (student.dfy) | the `Student` record, `getAverageGrade`, name-only `equals`, and `hashCode` |
| `StudentFileReader` (student_file_reader.dfy) | `createStudentFromFile`, and the filtering and skipping loop of `readStudentsFromDirectory` |
| `GradeCalculator` (grade_calculator.dfy) | `groupGradesBySubject`, `calculateAverage`, and `calculateAverageGradesBySubject` |
| `StudentRanking` (student_ranking.dfy) | `findMax/MinAverage`, `filterStudentsByAverage`, and `findBest/WorstStudents` |
| `Report` (report.dfy) | the facts the application reports: no students found, or the averages, best, worst and count |

Design choices:

- **File-system values become inputs.** The file system is represented only
  by the values it hands the program:
  - whether the path is a directory;
  - the `listFiles()` result, where `None` stands for `null`;
  - for each entry, its name, whether it is a regular file, and its lines
    (or `None` when they cannot be read).
- **Exceptions become values.** `InvalidStudentFileException` becomes the
  `ReadError` datatype:
  - `TooFewLines`;
  - `BadGradeFormat` (the grade is not a Java int, including an out-of-range
    literal);
  - `GradeOutOfRange`.
- **Line processing.** `createStudentFromFile` first computes what every line
  contributes (`ParseLines`), then applies those outcomes in file order
  (`ApplyLines`); the first rejected line decides the error. Because parsing
  a line has no side effects, this gives the same result as the Java loop,
  which stops at that line.
- **Exact averages.** Averages are exact `real`s. Every average is a ratio of
  small integers, so the comparisons that decide ties come out as they would
  with the program's doubles.
- **Ghost functions.** The sum of a `HashMap`'s values is taken in an
  unspecified key order, so `GradeSum`, `Average` and everything that ranks by
  average are ghost functions. `GradeSumRemove` shows that the order does not
  matter.

## Model

| member | source | states |
|---|---|---|
| FileValidator.IsValidFullName | src/main/java/org/example/service/FileValidator.java:13-21 | definition, no contract of its own: non-empty, not blank, and the trimmed name splits into three parts; ValidFullNameIffThreeWords characterises it |
| FileValidator.IsValidGrade | src/main/java/org/example/service/FileValidator.java:26-28 | definition, no contract of its own: 1 <= grade <= 5 |
| FileValidator.ValidGradesAreOneToFive | src/main/java/org/example/service/FileValidator.java:26-28 | a grade is admissible exactly when it is one of 1, 2, 3, 4, 5 |
| FileValidator.ValidFullNameIffThreeWords | src/main/java/org/example/service/FileValidator.java:13-21 | a name is accepted exactly when its trimmed form has three whitespace-separated words, so "", blank names and 1-, 2- or 4-word names are rejected |
| FileValidator.ValidFullNameIgnoresPadding | src/main/java/org/example/service/FileValidator.java:17-20 | leading and trailing blanks do not change whether a name is accepted |
| FileValidator.ThreeWordsAccepted | src/main/java/org/example/service/FileValidator.java:20 | any three printable words (Cyrillic included) separated by blank runs form a valid name; the word content is not checked |
| Whitespace.Trim | src/main/java/org/example/service/FileValidator.java:17 | the result is a substring of the input, no longer than it, whose first and last chars are not trimmable |
| Whitespace.TrimEmptyExactlyWhenBlank | src/main/java/org/example/service/FileValidator.java:17-19 | `trim()` is empty exactly when every char is a blank up to U+0020 |
| Whitespace.TrimDecomposes | src/main/java/org/example/service/FileValidator.java:17 | every string is its trimmed core padded on both sides by trimmable chars |
| Whitespace.TrimOfPadded | src/main/java/org/example/service/StudentFileReader.java:78 | trimming a padded trimmed core gives back exactly that core |
| Whitespace.TrimIgnoresPadding | src/main/java/org/example/service/FileValidator.java:17-20 | extra trimmable padding does not change the trimmed string |
| Whitespace.Split | src/main/java/org/example/service/FileValidator.java:20 | definition, no contract of its own: `Pattern.split` with trailing empty strings dropped and `[s]` without a match; SplitOfTrimmed characterises it |
| Whitespace.SplitOfTrimmed | src/main/java/org/example/service/FileValidator.java:20 | on a trimmed non-empty string, `split("\\s+")` yields exactly its maximal non-blank words |
| Whitespace.WordsOfWordThenGap | src/main/java/org/example/service/FileValidator.java:20 | a word followed by a blank run contributes just that word to the split |
| Strings.Contains | src/main/java/org/example/service/StudentFileReader.java:79 | definition, no contract of its own: the pattern occurs at some position of the string |
| Strings.EndsWith | src/main/java/org/example/service/StudentFileReader.java:64 | definition, no contract of its own: the string is at least as long as the suffix and its last chars are the suffix |
| Strings.EqualsIgnoreCase | src/main/java/org/example/service/StudentFileReader.java:65 | definition, no contract of its own: equal lengths and each pair of chars equal after upper- or lower-casing; ReportNeverMatchesTextFiles uses it |
| Strings.LastIndexOf | src/main/java/org/example/service/StudentFileReader.java:80-82 | the index found is an occurrence with none after it, and there is none exactly when the string does not contain the pattern |
| Strings.RemoveAll | src/main/java/org/example/service/StudentFileReader.java:45 | `replace` never lengthens a name and leaves a name without the pattern unchanged; RemoveAllSplits states what it deletes |
| Strings.RemoveAllSplits | src/main/java/org/example/service/StudentFileReader.java:45 | for a pattern whose first char does not recur in it (such as ".txt"), an occurrence is deleted and the text on either side is stripped independently; with the no-occurrence clause this fixes the result for every string |
| Strings.RemoveAllWithoutFirstChar | src/main/java/org/example/service/StudentFileReader.java:45 | a string without the pattern's first char is left unchanged |
| Strings.RemoveAllOfSuffix | src/main/java/org/example/service/StudentFileReader.java:45 | removing a pattern that occurs only as the suffix leaves exactly the base |
| IntParsing.ParseInt | src/main/java/org/example/service/StudentFileReader.java:81-82 | a parsed value is a 32-bit int, comes from an optionally signed non-empty digit string, and is negative only after a minus sign |
| IntParsing.ParseIntOfSignedDigits | src/main/java/org/example/service/StudentFileReader.java:81-82 | an optional "+" or "-" followed by digits parses to its value, leading zeros and a plus sign included, exactly when that value fits in an int, and is rejected otherwise |
| IntParsing.ParseIntRoundTrip | src/main/java/org/example/service/StudentFileReader.java:81-82 | every int printed in decimal parses back to itself |
| IntParsing.ParseIntRejectsNonDigit | src/main/java/org/example/service/StudentFileReader.java:90-92 | a non-digit char other than a leading sign makes the parse fail, which is a format error |
| IntParsing.ParseIntRejectsBareSign | src/main/java/org/example/service/StudentFileReader.java:90-92 | the empty string and a lone sign are format errors |
| IntParsing.ParseIntRejectsOverflow | src/main/java/org/example/service/StudentFileReader.java:90-92 | a digit string beyond the int range is a format error, not a range error |
| StudentModel.Average | src/main/java/org/example/model/Student.java:29-38 | definition, no contract of its own: 0 without grades, otherwise the grade sum over the number of grades; AverageInGradeRange and AverageOfNoGrades state its properties |
| StudentModel.SameStudent | src/main/java/org/example/model/Student.java:40-50 | definition, no contract of its own: equality of full names |
| StudentModel.AverageOfNoGrades | src/main/java/org/example/model/Student.java:30-32 | a student without grades has average 0 |
| StudentModel.GradeSum | src/main/java/org/example/model/Student.java:33-36 | definition, no contract of its own: the sum of the map's grades taken in an arbitrary order; GradeSumRemove shows the order does not matter |
| StudentModel.GradeSumRemove | src/main/java/org/example/model/Student.java:33-36 | the grade sum does not depend on the order the map is iterated in: any entry can be taken first |
| StudentModel.GradeSumUpdate | src/main/java/org/example/service/StudentFileReader.java:87 | a later line for the same subject, whose `put` overwrites the earlier grade, changes the sum the average is taken over by exactly the new grade minus the old one |
| StudentModel.GradeSumBounds | src/main/java/org/example/model/Student.java:33-37 | grades between lo and hi give a sum between lo and hi times the number of grades |
| StudentModel.AverageInGradeRange | src/main/java/org/example/model/Student.java:29-38 | with admissible grades and at least one subject, the average lies in [1, 5] |
| StudentModel.SameStudentIgnoresGrades | src/main/java/org/example/model/Student.java:40-50 | two students with the same name are equal, whatever their grades |
| StudentModel.Wrap32 | src/main/java/org/example/model/Student.java:52-55 | reduction to a 32-bit int: in range and congruent modulo 2^32 |
| StudentModel.StringHash | src/main/java/org/example/model/Student.java:52-55 | `String.hashCode` stays within the int range |
| StudentModel.HashCode | src/main/java/org/example/model/Student.java:52-55 | `Objects.hash(fullName)` stays within the int range |
| StudentModel.HashCodeConsistentWithEquality | src/main/java/org/example/model/Student.java:52-55 | equal students (same name) have equal hash codes |
| StudentFileReader.ParseLine | src/main/java/org/example/service/StudentFileReader.java:78-87 | a line is skipped exactly when its trimmed form lacks " - "; a grade taken from a line is admissible; a bad line gives a format or range error |
| StudentFileReader.LastSeparatorOfEntry | src/main/java/org/example/service/StudentFileReader.java:80-82 | in `subject - text` with no space in the text, the last separator is the one after the subject, even when the subject contains " - " |
| StudentFileReader.ParseLineOfGradeText | src/main/java/org/example/service/StudentFileReader.java:78-92 | a line `subject - text` gives the subject with the grade the text parses to; text that is not a Java int (such as "five" or "99999999999") is a format error, and an int outside 1..5 (such as "+07") is a range error |
| StudentFileReader.ParseLineOfEntry | src/main/java/org/example/service/StudentFileReader.java:78-87 | `subject - g` gives that subject and grade when g is in 1..5, a range error otherwise; `Advanced - Topics - 5` gives subject `Advanced - Topics` |
| StudentFileReader.ParseLineIgnoresPadding | src/main/java/org/example/service/StudentFileReader.java:78 | blanks before or after a line never change what it contributes: only the trimmed line is read |
| StudentFileReader.ParseLineOfPaddedEntry | src/main/java/org/example/service/StudentFileReader.java:80-82 | blanks between the subject and the separator, or between the separator and the grade text, are trimmed away: `Math   -  5` reads exactly like `Math - 5` |
| StudentFileReader.ParseLines | src/main/java/org/example/service/StudentFileReader.java:77-89 | there is one outcome per line, in file order, and the outcome at each position is the parse of the line at that position |
| StudentFileReader.ApplyLines | src/main/java/org/example/service/StudentFileReader.java:77-89 | on success, every admissible grade map stays admissible and no subject is lost |
| StudentFileReader.ApplyLinesFails | src/main/java/org/example/service/StudentFileReader.java:77-92 | the loop fails exactly when some line is rejected, and then with that first rejected line's error |
| StudentFileReader.LastGradeFor | src/main/java/org/example/service/StudentFileReader.java:87 | reference definition: the grade of the last line naming the subject, and none exactly when no line names it |
| StudentFileReader.ApplyLinesLastWriteWins | src/main/java/org/example/service/StudentFileReader.java:87 | after the loop each subject holds the grade of its last line, or its earlier value if no line names it |
| StudentFileReader.ApplyLinesAllSkipped | src/main/java/org/example/service/StudentFileReader.java:79 | lines that are all skipped leave the grades unchanged |
| StudentFileReader.CreateStudentFromFile | src/main/java/org/example/service/StudentFileReader.java:68-95 | fewer than five raw lines always fail with the too-few-lines error; a created student keeps the given name and has admissible grades |
| StudentFileReader.CreateStudentFirstRejection | src/main/java/org/example/service/StudentFileReader.java:77-92 | with at least five lines, the first rejected line in file order decides the error |
| StudentFileReader.CreateStudentAccepts | src/main/java/org/example/service/StudentFileReader.java:68-95 | with at least five lines and no rejected line, the student is created |
| StudentFileReader.CreateStudentGrades | src/main/java/org/example/service/StudentFileReader.java:87 | a created student's grade for a subject is the one on the last line naming it |
| StudentFileReader.SkippedLinesGiveNoGrades | src/main/java/org/example/service/StudentFileReader.java:70-94 | five or more lines without a separator give a student with no grades: the size check counts raw lines, not subjects |
| StudentFileReader.ReadEntry | src/main/java/org/example/service/StudentFileReader.java:40-58 | a student is read only from a file that passes the filter; the student is named after the file's name with ".txt" removed, and has a valid name and admissible grades |
| StudentFileReader.ReadStudents | src/main/java/org/example/service/StudentFileReader.java:40-58 | at most one student per entry, each with a valid name and admissible grades |
| StudentFileReader.ReadStudentsFromDirectory | src/main/java/org/example/service/StudentFileReader.java:25-60 | the only failure is a path that is not a directory; a null listing gives no students; a listing gives exactly the students its entries yield, in listing order |
| StudentFileReader.ReadStudentsAppend | src/main/java/org/example/service/StudentFileReader.java:40-58 | students come out in listing order: reading a split listing concatenates the results |
| StudentFileReader.ReadOneEntry | src/main/java/org/example/service/StudentFileReader.java:40-58 | one entry yields its student if accepted, nothing otherwise |
| StudentFileReader.SkippedEntryContributesNothing | src/main/java/org/example/service/StudentFileReader.java:40-58 | a skipped entry is not fatal: the rest are read as if it were absent |
| StudentFileReader.AcceptedEntryContributesStudent | src/main/java/org/example/service/StudentFileReader.java:40-58 | an accepted entry's student appears in the entry's place |
| StudentFileReader.ShouldProcessFile | src/main/java/org/example/service/StudentFileReader.java:62-66 | definition, no contract of its own: a regular file whose name ends in ".txt" and is not the report name ignoring case |
| StudentFileReader.Identity | src/main/java/org/example/service/StudentFileReader.java:45 | definition, no contract of its own: the file name with every ".txt" removed; IdentityRemovesEveryExtension states it |
| StudentFileReader.ReportNeverMatchesTextFiles | src/main/java/org/example/service/StudentFileReader.java:62-66 | no name ending in ".txt" equals the Cyrillic report name ignoring case |
| StudentFileReader.IdentityOfTextFile | src/main/java/org/example/service/StudentFileReader.java:45 | `<name>.txt` stands for `<name>` when ".txt" occurs only at the end |
| StudentFileReader.IdentityRemovesEveryExtension | src/main/java/org/example/service/StudentFileReader.java:45 | every ".txt" is removed wherever it stands: the name is cut at any occurrence and both sides are stripped independently |
| StudentFileReader.IdentityOfInnerExtension | src/main/java/org/example/service/StudentFileReader.java:45 | a name with ".txt" inside and at the end, such as "Ivanov.txt Ivan Ivanovich.txt", stands for the name with both removed |
| StudentFileReader.StudentFileIsProcessed | src/main/java/org/example/service/StudentFileReader.java:62-66 | a regular file `<name>.txt` passes the filter and stands for `<name>` |
| StudentFileReader.ReadTextFile | src/main/java/org/example/service/StudentFileReader.java:40-58 | any regular ".txt" file whose name, with every ".txt" removed, is a valid full name is read exactly when its lines are readable and parse, and then gives the student built from those lines |
| StudentFileReader.ReadStudentFile | src/main/java/org/example/service/StudentFileReader.java:40-58 | corollary of ReadTextFile for the usual name `<full name>.txt`: the file is read exactly when its lines are readable and parse, and then gives the student of that full name |
| GradeCalculator.CalculateAverage | src/main/java/org/example/service/GradeCalculator.java:46-53 | an empty list has average 0; a non-empty list of admissible grades has an average in [1, 5] |
| GradeCalculator.AddStudentGrades | src/main/java/org/example/service/GradeCalculator.java:34-41 | the subjects collected so far grow by exactly the student's subjects |
| GradeCalculator.AddStudentGradesCollects | src/main/java/org/example/service/GradeCalculator.java:35-40 | one student appends their grade to each of their subjects' lists and leaves the other lists alone |
| GradeCalculator.SubjectGrades | src/main/java/org/example/service/GradeCalculator.java:31-44 | reference definition: a subject's grades, one per student who has it, non-empty exactly when someone has the subject |
| GradeCalculator.SubjectGradesAppend | src/main/java/org/example/service/GradeCalculator.java:34 | the grades of a split student list are the concatenation of the parts' grades |
| GradeCalculator.GroupInto | src/main/java/org/example/service/GradeCalculator.java:34-41 | definition, no contract of its own: adds each student's grades in student order; GroupIntoCollects states what it collects |
| GradeCalculator.GroupIntoCollects | src/main/java/org/example/service/GradeCalculator.java:31-44 | grouping adds to each subject exactly its grades in student order, and creates a list only for a subject some student has |
| GradeCalculator.GroupGradesMatchesReference | src/main/java/org/example/service/GradeCalculator.java:31-44 | the groups' keys are exactly the subjects some student has, and each list is non-empty |
| GradeCalculator.GroupGradesBySubject | src/main/java/org/example/service/GradeCalculator.java:31-44 | definition, no contract of its own: grouping from an empty map over the students in order; GroupGradesMatchesReference characterises it |
| GradeCalculator.CalculateAverageGradesBySubject | src/main/java/org/example/service/GradeCalculator.java:17-29 | there is one average per grouped subject |
| GradeCalculator.SubjectAverage | src/main/java/org/example/service/GradeCalculator.java:17-29 | a subject has an average exactly when a student has it, and that average is its grade sum over the number of students who have it |
| GradeCalculator.NoStudentsNoAverages | src/main/java/org/example/service/GradeCalculator.java:17-29 | no students give an empty map |
| GradeCalculator.SubjectAverageInGradeRange | src/main/java/org/example/service/GradeCalculator.java:46-53 | with admissible grades every subject average is in [1, 5] |
| GradeCalculator.SubjectGradesPermutation | src/main/java/org/example/service/GradeCalculator.java:31-44 | reordering the students only permutes each subject's grades |
| GradeCalculator.AveragesIgnoreOrder | src/main/java/org/example/service/GradeCalculator.java:17-53 | the averages do not depend on the order of the students |
| GradeCalculator.TwoStudentsAverages | src/main/java/org/example/service/GradeCalculator.java:17-53 | for two students, a shared subject averages their two grades and a subject of one student takes that grade |
| StudentRanking.MaxAverage | src/main/java/org/example/service/StudentRanking.java:37-42 | no average exceeds the maximum; for no students it is the -1 sentinel |
| StudentRanking.MinAverage | src/main/java/org/example/service/StudentRanking.java:44-49 | no average is below the minimum; for no students it is the 6 sentinel |
| StudentRanking.MaxAverageAttained | src/main/java/org/example/service/StudentRanking.java:37-42 | for a non-empty list some student holds the maximum, so the sentinel is unreachable |
| StudentRanking.MinAverageAttained | src/main/java/org/example/service/StudentRanking.java:44-49 | for a non-empty list some student holds the minimum |
| StudentRanking.FilterByAverage | src/main/java/org/example/service/StudentRanking.java:51-68 | the result is an order-preserving subsequence; every element matches and every matching student appears; FilterByAverageCounts states the copies |
| StudentRanking.FilterByAverageCounts | src/main/java/org/example/service/StudentRanking.java:56-64 | the filter keeps every copy of a matching student and no copy of any other, so repeated equal records all stay |
| StudentRanking.FindBestStudents | src/main/java/org/example/service/StudentRanking.java:16-23 | the best list is empty exactly for no students; it is an ordered subsequence, and no one's average exceeds a best student's |
| StudentRanking.FindWorstStudents | src/main/java/org/example/service/StudentRanking.java:28-35 | the worst list is empty exactly for no students; it is an ordered subsequence, and no one's average is below a worst student's |
| StudentRanking.FilterKeepsTied | src/main/java/org/example/service/StudentRanking.java:51-68 | when matching the target means equalling it, the filter keeps exactly the tied students |
| StudentRanking.BestAreTiedWithMaximum | src/main/java/org/example/service/StudentRanking.java:16-23 | the best students are exactly those tied with the highest average |
| StudentRanking.WorstAreTiedWithMinimum | src/main/java/org/example/service/StudentRanking.java:28-35 | the worst students are exactly those tied with the lowest average |
| StudentRanking.BestMembership | src/main/java/org/example/service/StudentRanking.java:16-23 | a student is best exactly when no one beats them; anyone excluded is strictly below the maximum |
| StudentRanking.WorstMembership | src/main/java/org/example/service/StudentRanking.java:28-35 | a student is worst exactly when no one is below them; anyone excluded is strictly above the minimum |
| StudentRanking.FilterKeepsAll | src/main/java/org/example/service/StudentRanking.java:51-68 | when every student matches, the filter returns the whole list |
| StudentRanking.AllTiedAreBestAndWorst | src/main/java/org/example/service/StudentRanking.java:16-35 | when all averages are equal, best and worst are both the whole input |
| StudentRanking.BestAndWorstMeetOnlyWhenAllTied | src/main/java/org/example/service/StudentRanking.java:16-35 | a student who is both best and worst means all averages are equal |
| StudentRanking.MaxIsAttained | src/main/java/org/example/service/StudentRanking.java:37-42 | a student no one beats holds the maximum |
| StudentRanking.MinIsAttained | src/main/java/org/example/service/StudentRanking.java:44-49 | a student no one is below holds the minimum |
| StudentRanking.StrictRanking | src/main/java/org/example/service/StudentRanking.java:16-35 | with three strictly decreasing averages (such as 14/3, 13/3, 3), best is only the first and worst only the last |
| StudentRanking.TiedAtTheTop | src/main/java/org/example/service/StudentRanking.java:16-35 | two students tied at the top (such as 4.5 and 4.5 above 3) are both best, and the lower one alone is worst |
| StudentRanking.TiedOfThree | src/main/java/org/example/service/StudentRanking.java:51-68 | for three students, the tied students are taken one by one in order |
| Report.BuildReport | src/main/java/org/example/App.java:35-45 | no students found exactly for an empty list; otherwise the count is the number of students and the best and worst lists are non-empty ordered subsequences |
| Report.ReportSubjects | src/main/java/org/example/App.java:41 | the report lists a subject exactly when some student has it, with the mean of its grades |
| Report.ReportRanking | src/main/java/org/example/App.java:42-43 | the report's best and worst are the students tied with the highest and with the lowest average |

## Left out

- Null full names (`fullName == null` at FileValidator.java:14): Dafny strings cannot be null, so that branch is not modelled.
- IntParsing.ParseInt: Unicode digits other than ASCII '0'..'9' are not modelled; `Integer.parseInt` also accepts them.
- Strings.EqualsIgnoreCase: case mapping covers ASCII and basic Cyrillic letters only; full Unicode case folding is left out. No ".txt" name can match the report name with either mapping.
- StudentModel.StringHash: counts one step per `char` of the Dafny string; for characters outside the Basic Multilingual Plane Java hashes two UTF-16 units.
- StudentModel.Average and the calculator's averages use exact reals, not IEEE doubles. The program's `%.2f` formatting is not modelled.
- GradeCalculator.CalculateAverage: sums with unbounded integers. `IntStream.sum()` wraps at 2^31, which would take hundreds of millions of grades.
- I/O is not modelled: the console prompt and printing, writing and deleting the report file, reading files, `isDirectory`, `isFile` and `listFiles`. Their results are inputs.
- Log4j logging and the exception messages.
- The order of `listFiles()` is unspecified; the model takes the listing order as given.
- `GradeAnalyzerService` only delegates to the three services and adds no logic.
- Getters are the datatype's fields: the record keeps exactly what it was built from.
- The worked examples with concrete Cyrillic names and grades are covered by generic lemmas rather than literal data:
  - TwoStudentsAverages covers the calculator;
  - StrictRanking and TiedAtTheTop cover the ranking.

=== FILE: file_validator.dfy ===
/**
 * The two validation predicates of the grade reader: a full name must be
 * exactly three whitespace-separated words, and a grade must lie in 1..5.
 */
module FileValidator {
  import opened Sequences
  import opened Whitespace

  const MinGrade: int := 1
  const MaxGrade: int := 5

  /** `isValidFullName`: non-empty, not blank, and `trim().split("\\s+")`
      has exactly three parts. */
  predicate IsValidFullName(fullName: string) {
    if fullName == "" then false
    else if Trim(fullName) == "" then false
    else |Split(Trim(fullName))| == 3
  }

  /** `isValidGrade`. */
  predicate IsValidGrade(grade: int) {
    grade >= MinGrade && grade <= MaxGrade
  }

  /** The admissible grades are exactly 1, 2, 3, 4 and 5. */
  lemma ValidGradesAreOneToFive(grade: int)
    ensures IsValidGrade(grade) <==> grade in {1, 2, 3, 4, 5}
  {
  }

  /** A name is accepted exactly when its trimmed form consists of three
      maximal runs of non-blank characters. Blank names have no words, so
      they are rejected, as are names of one, two, four or more words. */
  lemma ValidFullNameIffThreeWords(fullName: string)
    ensures IsValidFullName(fullName) <==> |Words(Trim(fullName))| == 3
  {
    var t := Trim(fullName);
    if t == [] {
      assert Words(t) == [];
    } else {
      SpaceIsTrimmable(t[0]);
      SpaceIsTrimmable(t[|t| - 1]);
      SplitOfTrimmed(t);
    }
  }

  /** Whether a name is accepted depends only on its trimmed form. */
  lemma ValidFullNameIgnoresPadding(p: string, fullName: string, q: string)
    requires AllTrimmable(p) && AllTrimmable(q)
    ensures IsValidFullName(p + fullName + q) == IsValidFullName(fullName)
  {
    TrimIgnoresPadding(p, fullName, q);
    ValidFullNameIffThreeWords(p + fullName + q);
    ValidFullNameIffThreeWords(fullName);
  }

  /** A printable word: non-empty and free of anything `trim()` would strip
      (Latin, Cyrillic and any other script qualify). */
  predicate IsPrintableWord(w: string) {
    w != [] && forall k :: 0 <= k < |w| ==> !IsTrimmable(w[k])
  }

  lemma PrintableHasNoSpace(w: string)
    requires IsPrintableWord(w)
    ensures NoSpace(w)
  {
    forall k | 0 <= k < |w| ensures !IsSpace(w[k]) {
      SpaceIsTrimmable(w[k]);
    }
  }

  /** Any three printable words separated by blank runs form a valid name;
      the content of the words is never inspected. */
  lemma ThreeWordsAccepted(a: string, g1: string, b: string, g2: string, c: string)
    requires IsPrintableWord(a) && IsPrintableWord(b) && IsPrintableWord(c)
    requires g1 != [] && AllSpace(g1) && g2 != [] && AllSpace(g2)
    ensures IsValidFullName(a + g1 + b + g2 + c)
  {
    PrintableHasNoSpace(a);
    PrintableHasNoSpace(b);
    PrintableHasNoSpace(c);
    var tail := b + g2 + c;
    var name := a + g1 + tail;
    assert a + g1 + b + g2 + c == name by {
      ConcatAssociative(a + g1, b + g2, c);
      ConcatAssociative(a + g1, b, g2);
    }
    WordsOfWordThenGap(c, [], []);
    assert c + [] + [] == c;
    WordsOfWordThenGap(b, g2, c);
    WordsOfWordThenGap(a, g1, tail);
    assert Words(name) == [a, b, c];
    assert name[0] == a[0];
    assert name[|name| - 1] == c[|c| - 1];
    assert [] + name + [] == name;
    TrimOfPadded([], name, []);
    ValidFullNameIffThreeWords(name);
  }
}

=== FILE: grade_calculator.dfy ===
/**
 * Per-subject averages over a list of students: every (subject, grade)
 * pair is grouped by subject, and each group's mean divides by the number
 * of students that have the subject.
 */
module GradeCalculator {
  import opened Sequences
  import opened FileValidator
  import opened StudentModel

  /** The sum of a list of grades. */
  function SeqSum(xs: seq<int>): int
    decreases |xs|
  {
    if |xs| == 0 then 0 else xs[0] + SeqSum(xs[1..])
  }

  lemma {:induction false} SeqSumAppend(a: seq<int>, b: seq<int>)
    ensures SeqSum(a + b) == SeqSum(a) + SeqSum(b)
    decreases |a|
  {
    if |a| == 0 {
      assert a + b == b;
    } else {
      assert (a + b)[1..] == a[1..] + b;
      SeqSumAppend(a[1..], b);
    }
  }

  /** Bounds on every element bound the sum. */
  lemma {:induction false} SeqSumBounds(xs: seq<int>, lo: int, hi: int)
    requires forall k :: 0 <= k < |xs| ==> lo <= xs[k] <= hi
    ensures lo * |xs| <= SeqSum(xs) <= hi * |xs|
    decreases |xs|
  {
    if |xs| > 0 {
      var rest := xs[1..];
      assert forall k :: 0 <= k < |rest| ==> rest[k] == xs[k + 1];
      SeqSumBounds(rest, lo, hi);
      ScaleSuccessor(lo, |xs|, |rest|);
      ScaleSuccessor(hi, |xs|, |rest|);
    }
  }

  /** The sum does not depend on the order of the elements. */
  lemma {:induction false} SeqSumPermutation(a: seq<int>, b: seq<int>)
    requires multiset(a) == multiset(b)
    ensures SeqSum(a) == SeqSum(b)
    decreases |a|
  {
    if |a| > 0 {
      assert a[0] in multiset(b);
      var i :| 0 <= i < |b| && b[i] == a[0];
      var others := b[..i] + b[i + 1..];
      assert b == b[..i] + [b[i]] + b[i + 1..];
      RemoveMatching(a, b, i);
      SeqSumPermutation(a[1..], others);
      SeqSumAppend(b[..i] + [b[i]], b[i + 1..]);
      SeqSumAppend(b[..i], [b[i]]);
      SeqSumAppend(b[..i], b[i + 1..]);
    }
  }

  /** `calculateAverage`: the mean of a list of grades, or 0 for none. */
  function CalculateAverage(grades: seq<int>): (r: real)
    ensures |grades| == 0 ==> r == 0.0
    ensures |grades| > 0 && (forall k :: 0 <= k < |grades| ==> IsValidGrade(grades[k])) ==> 1.0 <= r <= 5.0
  {
    if |grades| == 0 then 0.0
    else
      var mean := SeqSum(grades) as real / |grades| as real;
      assert (forall k :: 0 <= k < |grades| ==> IsValidGrade(grades[k])) ==> 1.0 <= mean <= 5.0 by {
        if forall k :: 0 <= k < |grades| ==> IsValidGrade(grades[k]) {
          SeqSumBounds(grades, MinGrade, MaxGrade);
          RatioBetween(SeqSum(grades), |grades|, MinGrade, MaxGrade);
        }
      }
      mean
  }

  /** The grades collected so far for a subject, or none. */
  function Collected(groups: map<string, seq<int>>, subject: string): seq<int> {
    if subject in groups then groups[subject] else []
  }

  /** What one student adds to a subject: their grade, if they have one. */
  function Contribution(st: Student, subject: string): seq<int> {
    if subject in st.grades then [st.grades[subject]] else []
  }

  /** The inner loop of `groupGradesBySubject`: each of the student's
      subjects gets the student's grade appended to its list, creating the
      list on first use. A student has at most one grade per subject, so the
      iteration order over the student's map does not matter. */
  function AddStudentGrades(groups: map<string, seq<int>>, st: Student): (r: map<string, seq<int>>)
    ensures r.Keys == groups.Keys + st.grades.Keys
  {
    map s | s in groups.Keys + st.grades.Keys :: Collected(groups, s) + Contribution(st, s)
  }

  /** The outer loop of `groupGradesBySubject`, over the students in order. */
  function GroupInto(groups: map<string, seq<int>>, students: seq<Student>): map<string, seq<int>>
    decreases |students|
  {
    if |students| == 0 then groups
    else GroupInto(AddStudentGrades(groups, students[0]), students[1..])
  }

  /** `groupGradesBySubject`. */
  function GroupGradesBySubject(students: seq<Student>): map<string, seq<int>> {
    GroupInto(map[], students)
  }

  /** `calculateAverageGradesBySubject`: the mean of every group. */
  function CalculateAverageGradesBySubject(students: seq<Student>): (r: map<string, real>)
    ensures r.Keys == GroupGradesBySubject(students).Keys
  {
    var groups := GroupGradesBySubject(students);
    map s | s in groups :: CalculateAverage(groups[s])
  }

  // ---------------------------------------------------------------------------
  // Reference definitions
  // ---------------------------------------------------------------------------

  /** Some student has a grade for the subject. */
  predicate HasSubject(students: seq<Student>, subject: string) {
    exists k :: 0 <= k < |students| && subject in students[k].grades
  }

  /** The grades for a subject of the students that have it, in list order. */
  function SubjectGrades(students: seq<Student>, subject: string): (r: seq<int>)
    ensures |r| <= |students|
    ensures r != [] <==> HasSubject(students, subject)
    decreases |students|
  {
    if |students| == 0 then []
    else
      var rest := students[1..];
      assert HasSubject(students, subject) <==> subject in students[0].grades || HasSubject(rest, subject) by {
        if k :| 0 <= k < |rest| && subject in rest[k].grades {
          assert students[k + 1] == rest[k];
        }
        if k :| 0 <= k < |students| && subject in students[k].grades && k > 0 {
          assert rest[k - 1] == students[k];
        }
      }
      Contribution(students[0], subject) + SubjectGrades(rest, subject)
  }

  lemma {:induction false} SubjectGradesAppend(a: seq<Student>, b: seq<Student>, subject: string)
    ensures SubjectGrades(a + b, subject) == SubjectGrades(a, subject) + SubjectGrades(b, subject)
    decreases |a|
  {
    if |a| == 0 {
      assert a + b == b;
    } else {
      assert (a + b)[0] == a[0];
      assert (a + b)[1..] == a[1..] + b;
      SubjectGradesAppend(a[1..], b, subject);
    }
  }

  /** One student's step adds the student's grade to each of their
      subjects and leaves the other lists alone. */
  lemma AddStudentGradesCollects(groups: map<string, seq<int>>, st: Student, subject: string)
    ensures subject in AddStudentGrades(groups, st) <==> subject in groups || subject in st.grades
    ensures Collected(AddStudentGrades(groups, st), subject) == Collected(groups, subject) + Contribution(st, subject)
  {
  }

  /** The grouping loop appends to each subject's list exactly that
      subject's grades, in list order; it creates a list only for a subject
      some student has. */
  lemma {:induction false} GroupIntoCollects(groups: map<string, seq<int>>, students: seq<Student>, subject: string)
    ensures subject in GroupInto(groups, students) <==> subject in groups || SubjectGrades(students, subject) != []
    ensures Collected(GroupInto(groups, students), subject) == Collected(groups, subject) + SubjectGrades(students, subject)
    decreases |students|
  {
    if |students| > 0 {
      var st := students[0];
      var next := AddStudentGrades(groups, st);
      var before := Collected(groups, subject);
      var mine := Contribution(st, subject);
      var later := SubjectGrades(students[1..], subject);
      assert SubjectGrades(students, subject) == mine + later;
      assert subject in next <==> subject in groups || mine != [] by {
        AddStudentGradesCollects(groups, st, subject);
      }
      assert Collected(next, subject) == before + mine by {
        AddStudentGradesCollects(groups, st, subject);
      }
      GroupIntoCollects(next, students[1..], subject);
      ConcatAssociative(before, mine, later);
    }
  }

  /** The grouping holds a list for exactly the subjects some student has,
      and that list is the subject's grades in list order, never empty. */
  lemma GroupGradesMatchesReference(students: seq<Student>, subject: string)
    ensures subject in GroupGradesBySubject(students) <==> HasSubject(students, subject)
    ensures subject in GroupGradesBySubject(students) ==>
      GroupGradesBySubject(students)[subject] == SubjectGrades(students, subject) != []
  {
    GroupIntoCollects(map[], students, subject);
    assert Collected(map[], subject) == [];
  }

  /** A subject's average is the sum of its grades over the students that
      have it, divided by how many students have it (not by the number of
      students). */
  lemma SubjectAverage(students: seq<Student>, subject: string)
    ensures subject in CalculateAverageGradesBySubject(students) <==> HasSubject(students, subject)
    ensures subject in CalculateAverageGradesBySubject(students) ==>
      var grades := SubjectGrades(students, subject);
      |grades| > 0 && CalculateAverageGradesBySubject(students)[subject] == SeqSum(grades) as real / |grades| as real
  {
    var r := CalculateAverageGradesBySubject(students);
    GroupGradesMatchesReference(students, subject);
    if subject in r {
      var grades := SubjectGrades(students, subject);
      assert r[subject] == CalculateAverage(grades) by {
        assert GroupGradesBySubject(students)[subject] == grades;
      }
    }
  }

  /** No students, no subjects. */
  lemma NoStudentsNoAverages()
    ensures CalculateAverageGradesBySubject([]) == map[]
  {
    assert GroupGradesBySubject([]) == map[];
  }

  /** With admissible grades everywhere, every subject average lies in 1..5. */
  lemma SubjectAverageInGradeRange(students: seq<Student>, subject: string)
    requires forall k :: 0 <= k < |students| ==> AllGradesValid(students[k].grades)
    requires subject in CalculateAverageGradesBySubject(students)
    ensures 1.0 <= CalculateAverageGradesBySubject(students)[subject] <= 5.0
  {
    GroupGradesMatchesReference(students, subject);
    ValidSubjectGrades(students, subject);
  }

  lemma {:induction false} ValidSubjectGrades(students: seq<Student>, subject: string)
    requires forall k :: 0 <= k < |students| ==> AllGradesValid(students[k].grades)
    ensures forall k :: 0 <= k < |SubjectGrades(students, subject)| ==> IsValidGrade(SubjectGrades(students, subject)[k])
    decreases |students|
  {
    if |students| > 0 {
      var rest := students[1..];
      assert forall k :: 0 <= k < |rest| ==> rest[k] == students[k + 1];
      ValidSubjectGrades(rest, subject);
    }
  }

  /** Reordering the students permutes each subject's grades. */
  lemma {:induction false} SubjectGradesPermutation(a: seq<Student>, b: seq<Student>, subject: string)
    requires multiset(a) == multiset(b)
    ensures multiset(SubjectGrades(a, subject)) == multiset(SubjectGrades(b, subject))
    decreases |a|
  {
    if |a| > 0 {
      assert a[0] in multiset(b);
      var i :| 0 <= i < |b| && b[i] == a[0];
      var others := b[..i] + b[i + 1..];
      assert b == b[..i] + [b[i]] + b[i + 1..];
      RemoveMatching(a, b, i);
      SubjectGradesPermutation(a[1..], others, subject);
      SubjectGradesAppend(b[..i] + [b[i]], b[i + 1..], subject);
      SubjectGradesAppend(b[..i], [b[i]], subject);
      SubjectGradesAppend(b[..i], b[i + 1..], subject);
      assert SubjectGrades([b[i]], subject) == Contribution(a[0], subject) by {
        assert [b[i]][1..] == [];
      }
    }
  }

  /** The averages do not depend on the order of the students. */
  lemma AveragesIgnoreOrder(a: seq<Student>, b: seq<Student>)
    requires multiset(a) == multiset(b)
    ensures CalculateAverageGradesBySubject(a) == CalculateAverageGradesBySubject(b)
  {
    var ra := CalculateAverageGradesBySubject(a);
    var rb := CalculateAverageGradesBySubject(b);
    forall subject | subject in ra || subject in rb
      ensures subject in ra && subject in rb && ra[subject] == rb[subject]
    {
      GroupGradesMatchesReference(a, subject);
      GroupGradesMatchesReference(b, subject);
      assert HasSubject(a, subject) <==> HasSubject(b, subject) by {
        SubjectGradesPermutation(a, b, subject);
      }
      var ga := SubjectGrades(a, subject);
      var gb := SubjectGrades(b, subject);
      SubjectGradesPermutation(a, b, subject);
      assert |ga| == |multiset(ga)| == |multiset(gb)| == |gb|;
      SeqSumPermutation(ga, gb);
    }
  }

  lemma SubjectGradesOfTwo(students: seq<Student>, subject: string)
    requires |students| == 2
    ensures SubjectGrades(students, subject) == Contribution(students[0], subject) + Contribution(students[1], subject)
  {
    assert students[1..][1..] == [];
  }

  /** With two students, a shared subject is averaged over both and any
      other subject takes its single contributor's grade (the shape of the
      Math 5 and 3 giving 4.0, Chemistry 3 alone giving 3.0 example). */
  lemma TwoStudentsAverages(students: seq<Student>, subject: string)
    requires |students| == 2
    ensures var averages := CalculateAverageGradesBySubject(students);
      var a := students[0].grades;
      var b := students[1].grades;
      (subject in averages <==> subject in a || subject in b)
      && (subject in a && subject in b ==> averages[subject] == (a[subject] + b[subject]) as real / 2.0)
      && (subject in a && subject !in b ==> averages[subject] == a[subject] as real)
      && (subject !in a && subject in b ==> averages[subject] == b[subject] as real)
  {
    var a := students[0].grades;
    var b := students[1].grades;
    SubjectGradesOfTwo(students, subject);
    SubjectAverage(students, subject);
    var grades := SubjectGrades(students, subject);
    var ca := Contribution(students[0], subject);
    var cb := Contribution(students[1], subject);
    SeqSumAppend(ca, cb);
    assert SeqSum(ca) == if subject in a then a[subject] else 0;
    assert SeqSum(cb) == if subject in b then b[subject] else 0;
  }
}

=== FILE: int_parsing.dfy ===
/**
 * `Integer.parseInt` and `Integer.toString` on 32-bit Java ints, with ASCII
 * digits only.
 */
module IntParsing {
  import opened Outcomes

  const IntMin: int := -0x8000_0000
  const IntMax: int := 0x7FFF_FFFF

  predicate InIntRange(n: int) {
    IntMin <= n <= IntMax
  }

  predicate IsDigit(c: char) {
    '0' <= c <= '9'
  }

  predicate AllDigits(s: string) {
    forall k :: 0 <= k < |s| ==> IsDigit(s[k])
  }

  function DigitValue(c: char): nat
    requires IsDigit(c)
  {
    c as int - '0' as int
  }

  /** The number a string of decimal digits denotes (most significant first). */
  function DigitsValue(ds: string): nat
    requires AllDigits(ds)
  {
    if |ds| == 0 then 0 else 10 * DigitsValue(ds[..|ds| - 1]) + DigitValue(ds[|ds| - 1])
  }

  /** `Integer.parseInt(s)`: an optional `+` or `-` followed by at least one
      digit, denoting a value in the int range. `None` stands for
      `NumberFormatException`, which is also what an out-of-range literal
      raises. */
  function ParseInt(s: string): (r: Option<int>)
    ensures r.Some? ==> InIntRange(r.value)
    ensures r.Some? ==> |s| > 0 && AllDigits(if s[0] == '-' || s[0] == '+' then s[1..] else s)
    ensures r.Some? ==> |s| > (if s[0] == '-' || s[0] == '+' then 1 else 0)
    ensures r.Some? && r.value < 0 ==> s[0] == '-'
  {
    if |s| == 0 then None
    else
      var digits := if s[0] == '-' || s[0] == '+' then s[1..] else s;
      if |digits| == 0 || !AllDigits(digits) then None
      else
        var magnitude: int := DigitsValue(digits);
        var value: int := if s[0] == '-' then -magnitude else magnitude;
        if InIntRange(value) then Some(value) else None
  }

  function DigitChar(d: nat): (c: char)
    requires d < 10
    ensures IsDigit(c) && DigitValue(c) == d
  {
    ('0' as int + d) as char
  }

  /** The decimal digits of `n`, without leading zeros. */
  function NatToDigits(n: nat): (ds: string)
    ensures |ds| > 0 && AllDigits(ds)
  {
    if n < 10 then [DigitChar(n)] else NatToDigits(n / 10) + [DigitChar(n % 10)]
  }

  /** `Integer.toString(n)`. */
  function IntToString(n: int): (s: string)
    ensures |s| > 0 && IsDigit(s[|s| - 1])
    ensures forall k :: 0 <= k < |s| ==> IsDigit(s[k]) || (k == 0 && s[k] == '-')
  {
    if n < 0 then "-" + NatToDigits(-n) else NatToDigits(n)
  }

  lemma {:induction false} DigitsRoundTrip(n: nat)
    ensures DigitsValue(NatToDigits(n)) == n
  {
    var ds := NatToDigits(n);
    if n >= 10 {
      DigitsRoundTrip(n / 10);
      assert ds[..|ds| - 1] == NatToDigits(n / 10);
    }
  }

  /** Every int survives printing and parsing back. */
  lemma ParseIntRoundTrip(n: int)
    requires InIntRange(n)
    ensures ParseInt(IntToString(n)) == Some(n)
  {
    var s := IntToString(n);
    if n < 0 {
      var ds := NatToDigits(-n);
      assert s[1..] == ds;
      DigitsRoundTrip(-n);
    } else {
      DigitsRoundTrip(n);
    }
  }

  /** An optional sign followed by digits is accepted exactly when its value
      is in the int range, whatever leading zeros or plus sign it carries:
      "+5" and "05" both parse to 5. */
  lemma ParseIntOfSignedDigits(sign: string, ds: string)
    requires sign == "" || sign == "+" || sign == "-"
    requires |ds| > 0 && AllDigits(ds)
    ensures var v: int := if sign == "-" then -(DigitsValue(ds) as int) else DigitsValue(ds);
      ParseInt(sign + ds) == if InIntRange(v) then Some(v) else None
  {
    if sign != "" {
      assert (sign + ds)[1..] == ds;
    } else {
      assert sign + ds == ds;
    }
  }

  /** A character that is neither a digit nor a leading sign makes
      `parseInt` fail: letters, decimal points and inner blanks are all
      rejected. */
  lemma ParseIntRejectsNonDigit(s: string, k: nat)
    requires k < |s| && !IsDigit(s[k])
    requires k > 0 || (s[k] != '-' && s[k] != '+')
    ensures ParseInt(s) == None
  {
    if s[0] == '-' || s[0] == '+' {
      assert s[1..][k - 1] == s[k];
    }
  }

  /** A sign with no digits after it is rejected. */
  lemma ParseIntRejectsBareSign(s: string)
    requires s == "-" || s == "+" || s == ""
    ensures ParseInt(s) == None
  {
  }

  /** A well-formed digit string whose value exceeds the int range is
      rejected as a format error. */
  lemma ParseIntRejectsOverflow(ds: string)
    requires |ds| > 0 && AllDigits(ds) && DigitsValue(ds) > IntMax
    ensures ParseInt(ds) == None
    ensures ParseInt("+" + ds) == None
  {
    assert ("+" + ds)[1..] == ds;
  }
}

=== FILE: outcomes.dfy ===
/**
 * Failure-carrying values used in place of Java's null returns and
 * checked exceptions.
 */
module Outcomes {

  /** A value that may be absent (a null reference, a thrown parse error). */
  datatype Option<+T> = None | Some(value: T)

  /** Either a computed value or the error that a Java method would throw. */
  datatype Result<+T, +E> = Ok(value: T) | Err(error: E)
}

=== FILE: report.dfy ===
/**
 * The facts the application puts in its report: nothing when no valid
 * student was found, otherwise the subject averages, the best and worst
 * students and the number of students read.
 */
module Report {
  import opened StudentModel
  import opened GradeCalculator
  import opened StudentRanking

  datatype Report =
    | NoValidStudents
    | Summary(averages: map<string, real>, best: seq<Student>, worst: seq<Student>, total: nat)

  /** The report on the students read from a directory. */
  ghost function BuildReport(students: seq<Student>): (r: Report)
    ensures r.NoValidStudents? <==> students == []
    ensures r.Summary? ==> r.total == |students| && r.best != [] && r.worst != []
    ensures r.Summary? ==> IsSubsequence(r.best, students) && IsSubsequence(r.worst, students)
  {
    if |students| == 0 then NoValidStudents
    else
      Summary(CalculateAverageGradesBySubject(students), FindBestStudents(students),
              FindWorstStudents(students), |students|)
  }

  /** A report lists a subject exactly when some student has a grade in it,
      with the mean of those grades. */
  lemma ReportSubjects(students: seq<Student>, subject: string)
    requires students != []
    ensures var r := BuildReport(students);
      subject in r.averages <==> HasSubject(students, subject)
    ensures var r := BuildReport(students);
      subject in r.averages ==>
        var grades := SubjectGrades(students, subject);
        |grades| > 0 && r.averages[subject] == SeqSum(grades) as real / |grades| as real
  {
    SubjectAverage(students, subject);
  }

  /** A report names as best exactly the students tied with the highest
      average and as worst exactly those tied with the lowest. */
  lemma ReportRanking(students: seq<Student>)
    requires students != []
    ensures BuildReport(students).best == TiedWith(students, MaxAverage(students))
    ensures BuildReport(students).worst == TiedWith(students, MinAverage(students))
  {
    BestAreTiedWithMaximum(students);
    WorstAreTiedWithMinimum(students);
  }
}

=== FILE: sequences.dfy ===
/**
 * Generic facts about sequences: mapping, keeping the present values of a
 * sequence of options, and removing one element.
 */
module Sequences {
  import opened Outcomes

  /** `f` applied to every element, in order. */
  function Apply<A, B>(f: A -> B, xs: seq<A>): (r: seq<B>)
    ensures |r| == |xs|
    ensures forall k :: 0 <= k < |xs| ==> r[k] == f(xs[k])
    decreases |xs|
  {
    if |xs| == 0 then [] else [f(xs[0])] + Apply(f, xs[1..])
  }

  /** Applying `f` commutes with concatenation. */
  lemma ApplyAppend<A, B>(f: A -> B, a: seq<A>, b: seq<A>)
    ensures Apply(f, a + b) == Apply(f, a) + Apply(f, b)
  {
    assert forall k :: 0 <= k < |a + b| ==> Apply(f, a + b)[k] == (Apply(f, a) + Apply(f, b))[k];
  }

  /** The present values of a sequence of options, in order. */
  function Present<T>(xs: seq<Option<T>>): (r: seq<T>)
    ensures |r| <= |xs|
    ensures forall k :: 0 <= k < |r| ==> exists j :: 0 <= j < |xs| && xs[j] == Some(r[k])
    ensures (forall j :: 0 <= j < |xs| ==> xs[j].None?) ==> r == []
    decreases |xs|
  {
    if |xs| == 0 then []
    else
      var rest := Present(xs[1..]);
      assert forall k :: 0 <= k < |rest| ==> exists j :: 0 <= j < |xs| && xs[j] == Some(rest[k]) by {
        forall k | 0 <= k < |rest| ensures exists j :: 0 <= j < |xs| && xs[j] == Some(rest[k]) {
          var j :| 0 <= j < |xs[1..]| && xs[1..][j] == Some(rest[k]);
          assert xs[j + 1] == Some(rest[k]);
        }
      }
      match xs[0]
      case Some(v) => [v] + rest
      case None => rest
  }

  /** Taking the present values commutes with concatenation. */
  lemma {:induction false} PresentAppend<T>(a: seq<Option<T>>, b: seq<Option<T>>)
    ensures Present(a + b) == Present(a) + Present(b)
    decreases |a|
  {
    if |a| == 0 {
      assert a + b == b;
    } else {
      assert (a + b)[0] == a[0];
      assert (a + b)[1..] == a[1..] + b;
      PresentAppend(a[1..], b);
    }
  }

  /** A single option contributes its value if present, nothing otherwise. */
  lemma PresentOfOne<T>(x: Option<T>)
    ensures Present([x]) == if x.Some? then [x.value] else []
  {
    assert [x][1..] == [];
  }

  /** Concatenation is associative. */
  lemma ConcatAssociative<T>(a: seq<T>, b: seq<T>, c: seq<T>)
    ensures a + (b + c) == a + b + c
  {
  }

  /** Regrouping a five-part concatenation. */
  lemma Regroup<T>(a: seq<T>, b: seq<T>, c: seq<T>, d: seq<T>, e: seq<T>)
    ensures a + (b + c + d) + e == (a + b) + c + (d + e)
  {
  }

  /** Taking out the element at `i` removes exactly one copy of it. */
  lemma RemoveAt<T>(b: seq<T>, i: nat)
    requires i < |b|
    ensures multiset(b) == multiset(b[..i] + b[i + 1..]) + multiset{b[i]}
  {
    assert b == b[..i] + [b[i]] + b[i + 1..];
  }

  /** Two sequences with the same elements, split at a shared element, have
      the same elements left. */
  lemma RemoveMatching<T>(a: seq<T>, b: seq<T>, i: nat)
    requires |a| > 0 && i < |b| && b[i] == a[0] && multiset(a) == multiset(b)
    ensures multiset(a[1..]) == multiset(b[..i] + b[i + 1..])
  {
    var rest := b[..i] + b[i + 1..];
    assert a == [a[0]] + a[1..];
    assert multiset(a) == multiset{a[0]} + multiset(a[1..]);
    RemoveAt(b, i);
    assert multiset(a[1..]) + multiset{a[0]} == multiset(rest) + multiset{a[0]};
    assert forall x :: multiset(a[1..])[x] == multiset(rest)[x] by {
      forall x ensures multiset(a[1..])[x] == multiset(rest)[x] {
        assert (multiset(a[1..]) + multiset{a[0]})[x] == (multiset(rest) + multiset{a[0]})[x];
      }
    }
  }
}

=== FILE: strings.dfy ===
/**
 * The `java.lang.String` search and comparison operations the reader uses:
 * `contains`, `lastIndexOf`, `endsWith`, `replace(target, "")` and
 * `equalsIgnoreCase`.
 */
module Strings {
  import opened Outcomes

  /** `pat` occurs in `s` starting at index `i`. */
  predicate OccursAt(s: string, pat: string, i: int) {
    0 <= i && i + |pat| <= |s| && s[i..i + |pat|] == pat
  }

  /** `s.contains(pat)`. */
  predicate Contains(s: string, pat: string) {
    exists i :: 0 <= i <= |s| && OccursAt(s, pat, i)
  }

  /** `s.endsWith(suffix)`. */
  predicate EndsWith(s: string, suffix: string) {
    |suffix| <= |s| && s[|s| - |suffix|..] == suffix
  }

  /** The greatest index `i <= n` at which `pat` occurs, if any. */
  function LastOccurrenceUpTo(s: string, pat: string, n: nat): (r: Option<nat>)
    requires n <= |s|
    ensures r.Some? ==> r.value <= n && OccursAt(s, pat, r.value)
    ensures forall k :: (if r.Some? then r.value else -1) < k <= n ==> !OccursAt(s, pat, k)
    decreases n
  {
    if OccursAt(s, pat, n) then Some(n)
    else if n == 0 then None
    else LastOccurrenceUpTo(s, pat, n - 1)
  }

  /** `s.lastIndexOf(pat)`; `None` stands for Java's `-1`. */
  function LastIndexOf(s: string, pat: string): (r: Option<nat>)
    ensures r.Some? ==> OccursAt(s, pat, r.value)
    ensures r.Some? ==> forall k :: r.value < k ==> !OccursAt(s, pat, k)
    ensures r.None? <==> !Contains(s, pat)
  {
    LastOccurrenceUpTo(s, pat, |s|)
  }

  /** `s.replace(pat, "")`: every occurrence of `pat` found by a left-to-right
      scan is deleted; the scan resumes after each deleted occurrence and
      never looks back, so new occurrences formed by a deletion survive. An
      empty `pat` leaves `s` unchanged. */
  function RemoveAll(s: string, pat: string): (r: string)
    ensures |r| <= |s|
    ensures (forall k :: 0 <= k < |s| ==> !OccursAt(s, pat, k)) ==> r == s
    decreases |s|
  {
    if |pat| == 0 || |s| == 0 then s
    else if OccursAt(s, pat, 0) then RemoveAll(s[|pat|..], pat)
    else
      assert forall k :: 0 <= k < |s| - 1 ==> (OccursAt(s[1..], pat, k) ==> OccursAt(s, pat, k + 1)) by {
        forall k | 0 <= k < |s| - 1 && OccursAt(s[1..], pat, k) ensures OccursAt(s, pat, k + 1) {
          assert s[1..][k..k + |pat|] == s[k + 1..k + 1 + |pat|];
        }
      }
      [s[0]] + RemoveAll(s[1..], pat)
  }

  /** Stripping an extension that occurs only at the very end of a name
      returns the name without it. */
  lemma {:induction false} RemoveAllOfSuffix(base: string, pat: string)
    requires |pat| > 0
    requires forall k :: 0 <= k < |base| ==> !OccursAt(base + pat, pat, k)
    ensures RemoveAll(base + pat, pat) == base
    decreases |base|
  {
    var s := base + pat;
    if |base| == 0 {
      assert s == pat;
      assert s[0..|pat|] == pat;
      assert s[|pat|..] == [];
    } else {
      assert !OccursAt(s, pat, 0);
      assert s[1..] == base[1..] + pat;
      forall k | 0 <= k < |base[1..]| ensures !OccursAt(base[1..] + pat, pat, k) {
        if OccursAt(s[1..], pat, k) {
          assert s[1..][k..k + |pat|] == s[k + 1..k + 1 + |pat|];
          assert OccursAt(s, pat, k + 1);
        }
      }
      RemoveAllOfSuffix(base[1..], pat);
      assert [base[0]] + base[1..] == base;
    }
  }

  /** A pattern whose first character does not recur in it: no occurrence
      can start inside another one, as for ".txt". */
  predicate FirstCharUnique(pat: string) {
    |pat| > 0 && forall k :: 0 < k < |pat| ==> pat[k] != pat[0]
  }

  /** For such a pattern, `replace` deletes an occurrence and treats the text
      on either side of it independently. Together with the second ensures
      of `RemoveAll` (no occurrence, no change), this pins down the result
      for every string: split at the first occurrence and repeat. */
  lemma {:induction false} RemoveAllSplits(a: string, pat: string, b: string)
    requires FirstCharUnique(pat)
    ensures RemoveAll(a + pat + b, pat) == RemoveAll(a, pat) + RemoveAll(b, pat)
    decreases |a|
  {
    var s := a + pat + b;
    var n := |pat|;
    if |a| == 0 {
      assert s == pat + b;
      assert s[..n] == pat;
      assert s[n..] == b;
    } else if OccursAt(a, pat, 0) {
      assert s[..n] == a[..n];
      assert s[n..] == a[n..] + pat + b;
      RemoveAllSplits(a[n..], pat, b);
    } else {
      assert !OccursAt(s, pat, 0) by {
        if n <= |s| {
          if n <= |a| {
            assert s[..n] == a[..n];
          } else {
            assert s[..n][|a|] == pat[0];
            assert pat[|a|] != pat[0];
          }
        }
      }
      assert s[1..] == a[1..] + pat + b;
      RemoveAllSplits(a[1..], pat, b);
    }
  }

  /** A string that never contains the first character of the pattern has
      no occurrence to delete. */
  lemma RemoveAllWithoutFirstChar(s: string, pat: string)
    requires |pat| > 0 && forall k :: 0 <= k < |s| ==> s[k] != pat[0]
    ensures RemoveAll(s, pat) == s
  {
    forall k | 0 <= k < |s| ensures !OccursAt(s, pat, k) {
      if k + |pat| <= |s| {
        assert s[k..k + |pat|][0] == s[k];
      }
    }
  }

  // ---------------------------------------------------------------------------
  // equalsIgnoreCase
  // ---------------------------------------------------------------------------

  /** `Character.toUpperCase` on the Latin and basic Cyrillic letters. */
  function UpperCase(c: char): char {
    if 'a' <= c <= 'z' then (c as int - 0x20) as char
    else if 0x430 <= c as int <= 0x44F then (c as int - 0x20) as char
    else if 0x450 <= c as int <= 0x45F then (c as int - 0x50) as char
    else c
  }

  /** `Character.toLowerCase` on the Latin and basic Cyrillic letters. */
  function LowerCase(c: char): char {
    if 'A' <= c <= 'Z' then (c as int + 0x20) as char
    else if 0x410 <= c as int <= 0x42F then (c as int + 0x20) as char
    else if 0x400 <= c as int <= 0x40F then (c as int + 0x50) as char
    else c
  }

  /** The per-character test of `String.regionMatches(true, ...)`. */
  predicate SameLetterIgnoringCase(a: char, b: char) {
    a == b || UpperCase(a) == UpperCase(b) || LowerCase(UpperCase(a)) == LowerCase(UpperCase(b))
  }

  /** `s.equalsIgnoreCase(t)`. */
  predicate EqualsIgnoreCase(s: string, t: string) {
    |s| == |t| && forall k :: 0 <= k < |s| ==> SameLetterIgnoringCase(s[k], t[k])
  }
}

=== FILE: student.dfy ===
/**
 * The student record: a full name and a map from subject to grade, with
 * the personal average and the name-only notion of equality.
 */
module StudentModel {
  import opened FileValidator

  /** A student. The record is immutable: the fields are exactly what the
      constructor received. */
  datatype Student = Student(fullName: string, grades: map<string, int>)

  /** Every grade in the map is admissible. */
  predicate AllGradesValid(grades: map<string, int>) {
    forall s :: s in grades ==> IsValidGrade(grades[s])
  }

  /** The sum of the grades, in no particular order (a `HashMap` iterates in
      an order the program never relies on). */
  ghost function GradeSum(grades: map<string, int>): int
    decreases grades.Keys
  {
    if grades == map[] then 0
    else
      var s :| s in grades;
      grades[s] + GradeSum(grades - {s})
  }

  /** Removing one entry from a map shrinks it by exactly one. */
  lemma RemoveOneKey(grades: map<string, int>, s: string)
    requires s in grades
    ensures |grades - {s}| == |grades| - 1
  {
    assert (grades - {s}).Keys == grades.Keys - {s};
  }

  /** The sum does not depend on which entry is taken first: any entry can
      be split off. */
  lemma {:induction false} GradeSumRemove(grades: map<string, int>, s: string)
    requires s in grades
    ensures GradeSum(grades) == grades[s] + GradeSum(grades - {s})
    decreases grades.Keys
  {
    var t :| t in grades && GradeSum(grades) == grades[t] + GradeSum(grades - {t});
    if t != s {
      var both := grades - {s} - {t};
      assert GradeSum(grades - {t}) == grades[s] + GradeSum(both) by {
        assert grades - {t} - {s} == both;
        GradeSumRemove(grades - {t}, s);
      }
      assert GradeSum(grades - {s}) == grades[t] + GradeSum(both) by {
        GradeSumRemove(grades - {s}, t);
      }
    }
  }

  /** Writing a grade under a subject replaces that subject's old grade in
      the sum, if there was one. */
  lemma GradeSumUpdate(grades: map<string, int>, s: string, g: int)
    ensures GradeSum(grades[s := g]) == GradeSum(grades) + g - (if s in grades then grades[s] else 0)
  {
    var updated := grades[s := g];
    GradeSumRemove(updated, s);
    if s in grades {
      GradeSumRemove(grades, s);
      assert updated - {s} == grades - {s};
    } else {
      assert updated - {s} == grades;
    }
  }

  lemma ScaleSuccessor(c: int, n: int, m: int)
    requires n == m + 1
    ensures c * n == c * m + c
  {
  }

  /** Bounds on every grade bound the sum. */
  lemma {:induction false} GradeSumBounds(grades: map<string, int>, lo: int, hi: int)
    requires forall s :: s in grades ==> lo <= grades[s] <= hi
    ensures lo * |grades| <= GradeSum(grades) <= hi * |grades|
    decreases grades.Keys
  {
    if |grades| > 0 {
      var s :| s in grades;
      var rest := grades - {s};
      assert GradeSum(grades) == grades[s] + GradeSum(rest) by {
        GradeSumRemove(grades, s);
      }
      assert |rest| == |grades| - 1 by {
        RemoveOneKey(grades, s);
      }
      assert lo * |rest| <= GradeSum(rest) <= hi * |rest| by {
        GradeSumBounds(rest, lo, hi);
      }
      ScaleSuccessor(lo, |grades|, |rest|);
      ScaleSuccessor(hi, |grades|, |rest|);
    }
  }

  /** `getAverageGrade`: the mean of the grades, or 0 without any. */
  ghost function Average(st: Student): real {
    if |st.grades| == 0 then 0.0
    else GradeSum(st.grades) as real / |st.grades| as real
  }

  /** A student with admissible grades and at least one subject has an
      average between 1 and 5. */
  lemma AverageInGradeRange(st: Student)
    requires AllGradesValid(st.grades) && |st.grades| > 0
    ensures 1.0 <= Average(st) <= 5.0
  {
    GradeSumBounds(st.grades, MinGrade, MaxGrade);
    RatioBetween(GradeSum(st.grades), |st.grades|, MinGrade, MaxGrade);
  }

  /** A sum of `n` values bounded by `lo` and `hi` has a mean between them. */
  lemma RatioBetween(total: int, n: int, lo: int, hi: int)
    requires n > 0 && lo * n <= total <= hi * n
    ensures lo as real <= total as real / n as real <= hi as real
  {
    var q := total as real / n as real;
    assert q * n as real == total as real;
    assert (lo * n) as real == lo as real * n as real;
    assert (hi * n) as real == hi as real * n as real;
  }

  /** Without grades the average is 0. */
  lemma AverageOfNoGrades(fullName: string)
    ensures Average(Student(fullName, map[])) == 0.0
  {
  }

  /** `equals`: two students are the same when their names are. */
  predicate SameStudent(a: Student, b: Student) {
    a.fullName == b.fullName
  }

  /** Equality by name is an equivalence that ignores the grades. */
  lemma SameStudentIgnoresGrades(name: string, g1: map<string, int>, g2: map<string, int>)
    ensures SameStudent(Student(name, g1), Student(name, g2))
  {
  }

  const TwoTo32: int := 0x1_0000_0000
  const TwoTo31: int := 0x8000_0000

  /** Reduction of an integer to a 32-bit two's-complement int. */
  function Wrap32(x: int): (r: int)
    ensures -TwoTo31 <= r < TwoTo31
    ensures (r - x) % TwoTo32 == 0
  {
    var m := x % TwoTo32;
    if m >= TwoTo31 then m - TwoTo32 else m
  }

  /** `String.hashCode`: `h = 31 * h + c` over the characters, wrapping. */
  function StringHash(s: string): (h: int)
    ensures -TwoTo31 <= h < TwoTo31
  {
    if |s| == 0 then 0 else Wrap32(31 * StringHash(s[..|s| - 1]) + s[|s| - 1] as int)
  }

  /** `hashCode`: `Objects.hash(fullName)`, that is `31 + fullName.hashCode()`
      wrapped to 32 bits. */
  function HashCode(st: Student): (h: int)
    ensures -TwoTo31 <= h < TwoTo31
  {
    Wrap32(31 + StringHash(st.fullName))
  }

  /** `hashCode` agrees with `equals`. */
  lemma HashCodeConsistentWithEquality(a: Student, b: Student)
    requires SameStudent(a, b)
    ensures HashCode(a) == HashCode(b)
  {
  }
}

=== FILE: student_file_reader.dfy ===
/**
 * Reading students from a directory of `<full name>.txt` files, each line
 * of which reads `<subject> - <grade>`. The file system is reduced to the
 * values it reports: whether the path is a directory, the listed entries,
 * and the lines of each file.
 */
module StudentFileReader {
  import opened Outcomes
  import opened Sequences
  import opened Whitespace
  import opened Strings
  import opened IntParsing
  import opened FileValidator
  import opened StudentModel

  /** Why a file is rejected (the messages of `InvalidStudentFileException`). */
  datatype ReadError =
    | TooFewLines      // fewer than five lines
    | BadGradeFormat   // the grade text is not a Java int
    | GradeOutOfRange  // the grade is an int outside 1..5

  /** The least number of lines a student file must have. */
  const MinLines: nat := 5

  /** What separates a subject from its grade. */
  const Separator: string := " - "

  /** The extension of student files. */
  const TextExtension: string := ".txt"

  /** The report the program writes into the same directory. */
  const ReportFileName: string := "отчет.тхт"

  // ---------------------------------------------------------------------------
  // Parsing one file
  // ---------------------------------------------------------------------------

  /** What a single line contributes. */
  datatype LineResult =
    | Skipped                               // no separator after trimming
    | Graded(subject: string, grade: int)   // an admissible subject grade
    | Rejected(error: ReadError)            // the file must be rejected

  /** One iteration of the loop in `createStudentFromFile`: trim the line; if
      it contains the separator, the subject is the trimmed text before the
      LAST separator and the grade the trimmed text after it. */
  function ParseLine(line: string): (r: LineResult)
    ensures r.Skipped? <==> !Contains(Trim(line), Separator)
    ensures r.Graded? ==> IsValidGrade(r.grade)
    ensures r.Rejected? ==> r.error != TooFewLines
  {
    ParseTrimmedLine(Trim(line))
  }

  /** A trimmed line: split at the last separator, then read each side. */
  function ParseTrimmedLine(t: string): (r: LineResult)
    ensures r.Skipped? <==> !Contains(t, Separator)
    ensures r.Graded? ==> IsValidGrade(r.grade)
    ensures r.Rejected? ==> r.error != TooFewLines
  {
    match LastIndexOf(t, Separator)
    case None => Skipped
    case Some(i) => ParseSubjectGrade(Trim(t[..i]), Trim(t[i + |Separator|..]))
  }

  /** The two trimmed sides of a separator: the grade text must be a Java
      int, and that int a grade in 1..5. */
  function ParseSubjectGrade(subject: string, gradeText: string): (r: LineResult)
    ensures !r.Skipped?
    ensures r.Graded? ==> r.subject == subject && IsValidGrade(r.grade)
    ensures r.Rejected? ==> r.error != TooFewLines
  {
    match ParseInt(gradeText)
    case None => Rejected(BadGradeFormat)
    case Some(g) =>
      if IsValidGrade(g) then Graded(subject, g) else Rejected(GradeOutOfRange)
  }

  /** The outcome of every line of a file, in file order. */
  function ParseLines(lines: seq<string>): (r: seq<LineResult>)
    ensures |r| == |lines|
    ensures forall k :: 0 <= k < |lines| ==> r[k] == ParseLine(lines[k])
  {
    Apply(ParseLine, lines)
  }

  /** Every graded outcome carries an admissible grade. */
  predicate AdmissibleGrades(results: seq<LineResult>) {
    forall k :: 0 <= k < |results| ==> results[k].Graded? ==> IsValidGrade(results[k].grade)
  }

  /** Text without a space: nothing after the separator can then start
      another separator. */
  predicate HasNoBlank(text: string) {
    forall k :: 0 <= k < |text| ==> text[k] != ' '
  }

  /** In `<subject> - <text>` with no space in the text, the last separator
      is the one written, whatever the subject contains. */
  lemma LastSeparatorOfEntry(subject: string, text: string)
    requires HasNoBlank(text)
    ensures LastIndexOf(subject + Separator + text, Separator) == Some(|subject|)
  {
    var line := subject + Separator + text;
    var n := |subject|;
    assert OccursAt(line, Separator, n) by {
      assert line[n..n + 3] == Separator;
    }
    forall k | n < k ensures !OccursAt(line, Separator, k) {
      if k + 3 <= |line| {
        if k == n + 1 {
          assert line[k] == '-';
        } else if k == n + 2 {
          assert line[k + 2] == text[1];
        } else {
          assert line[k] == text[k - n - 3];
        }
      }
    }
  }

  /** A line `<subject> - <text>` reads as that subject with the grade the
      text parses to: text that is not a Java int is a format error, an int
      outside 1..5 a range error. So "Math - five" and "Math - 99999999999"
      are format errors and "Math - +07" is a range error. */
  lemma ParseLineOfGradeText(subject: string, text: string)
    requires subject != [] && IsTrimmed(subject)
    requires text != [] && IsTrimmed(text) && HasNoBlank(text)
    ensures ParseLine(subject + Separator + text)
      == match ParseInt(text)
         case None => Rejected(BadGradeFormat)
         case Some(g) => if IsValidGrade(g) then Graded(subject, g) else Rejected(GradeOutOfRange)
  {
    ParseCanonicalLine(subject, text);
  }

  /** The sides of the separator in `<subject> - <text>` are the subject
      and the text. */
  lemma ParseCanonicalLine(subject: string, text: string)
    requires subject != [] && IsTrimmed(subject)
    requires text != [] && IsTrimmed(text) && HasNoBlank(text)
    ensures ParseLine(subject + Separator + text) == ParseSubjectGrade(subject, text)
  {
    var line := subject + Separator + text;
    var n := |subject|;
    assert ParseLine(line) == ParseSubjectGrade(subject, text) by {
      assert Trim(line) == line by {
        assert line[0] == subject[0];
        assert line[|line| - 1] == text[|text| - 1];
        TrimOfTrimmed(line);
      }
      LastSeparatorOfEntry(subject, text);
      assert Trim(line[..n]) == subject by {
        assert line[..n] == subject;
        TrimOfTrimmed(subject);
      }
      assert Trim(line[n + |Separator|..]) == text by {
        assert line[n + 3..] == text;
        TrimOfTrimmed(text);
      }
      ParseLineOfSides(line, n, subject, text);
    }
  }

  /** In `<subject><blanks> - <blanks><text>` the sides of the separator
      are the subject and the text. */
  lemma ParsePaddedLine(subject: string, g1: string, g2: string, text: string)
    requires subject != [] && IsTrimmed(subject)
    requires text != [] && IsTrimmed(text) && HasNoBlank(text)
    requires AllTrimmable(g1) && AllTrimmable(g2)
    ensures ParseLine(subject + g1 + Separator + g2 + text) == ParseSubjectGrade(subject, text)
  {
    var head := subject + g1;
    var line := head + Separator + (g2 + text);
    assert line == subject + g1 + Separator + g2 + text;
    PaddedLineIsTrimmed(subject, g1, g2, text);
    LastSeparatorOfPaddedEntry(head, g2, text);
    SidesOfPaddedLine(subject, g1, g2, text);
    ParseLineOfSides(line, |head|, subject, text);
  }

  /** A padded entry has no blank at either end. */
  lemma PaddedLineIsTrimmed(subject: string, g1: string, g2: string, text: string)
    requires subject != [] && IsTrimmed(subject)
    requires text != [] && IsTrimmed(text)
    ensures var line := subject + g1 + Separator + (g2 + text);
      Trim(line) == line
  {
    var line := subject + g1 + Separator + (g2 + text);
    assert line[0] == subject[0];
    assert line[|line| - 1] == text[|text| - 1];
    TrimOfTrimmed(line);
  }

  /** The two sides of the separator of a padded entry trim to the subject
      and the text. */
  lemma SidesOfPaddedLine(subject: string, g1: string, g2: string, text: string)
    requires IsTrimmed(subject) && IsTrimmed(text)
    requires AllTrimmable(g1) && AllTrimmable(g2)
    ensures var line := subject + g1 + Separator + (g2 + text);
      var n := |subject + g1|;
      Trim(line[..n]) == subject && Trim(line[n + |Separator|..]) == text
  {
    var line := subject + g1 + Separator + (g2 + text);
    var n := |subject + g1|;
    assert line[..n] == [] + subject + g1;
    TrimOfPadded([], subject, g1);
    assert line[n + 3..] == g2 + text + [];
    TrimOfPadded(g2, text, []);
  }

  /** A line that is already trimmed and whose last separator is at `n`
      reads as the trimmed text on either side of it. */
  lemma ParseLineOfSides(line: string, n: nat, subject: string, text: string)
    requires Trim(line) == line && LastIndexOf(line, Separator) == Some(n)
    requires n + |Separator| <= |line|
    requires Trim(line[..n]) == subject && Trim(line[n + |Separator|..]) == text
    ensures ParseLine(line) == ParseSubjectGrade(subject, text)
  {
  }

  /** Only the trimmed line matters: blanks around a line never change what
      it contributes. */
  lemma ParseLineIgnoresPadding(p: string, line: string, q: string)
    requires AllTrimmable(p) && AllTrimmable(q)
    ensures ParseLine(p + line + q) == ParseLine(line)
  {
    TrimIgnoresPadding(p, line, q);
  }

  /** Blanks after the subject or before the grade text are trimmed away:
      "Math   -  5" reads like "Math - 5". */
  lemma ParseLineOfPaddedEntry(subject: string, g1: string, g2: string, text: string)
    requires subject != [] && IsTrimmed(subject)
    requires text != [] && IsTrimmed(text) && HasNoBlank(text)
    requires AllTrimmable(g1) && AllTrimmable(g2)
    ensures ParseLine(subject + g1 + Separator + g2 + text) == ParseLine(subject + Separator + text)
  {
    ParsePaddedLine(subject, g1, g2, text);
    ParseCanonicalLine(subject, text);
  }

  /** In `<head> - <blanks><text>` with no space in the text, the last
      separator is the one after the head. */
  lemma LastSeparatorOfPaddedEntry(head: string, g2: string, text: string)
    requires AllTrimmable(g2) && HasNoBlank(text)
    ensures LastIndexOf(head + Separator + g2 + text, Separator) == Some(|head|)
  {
    var line := head + Separator + g2 + text;
    var n := |head|;
    var m := n + 3 + |g2|;
    assert OccursAt(line, Separator, n) by {
      assert line[n..n + 3] == Separator;
    }
    forall k | n < k ensures !OccursAt(line, Separator, k) {
      if k + 3 <= |line| {
        if k == n + 1 {
          assert line[k] == '-';
        } else if k + 1 < m {
          assert line[k + 1] == g2[k + 1 - n - 3];
          assert IsTrimmable(line[k + 1]);
        } else if k + 1 == m {
          assert line[k + 2] == text[1];
        } else {
          assert line[k] == text[k - m];
        }
      }
    }
  }

  /** A line written as `<subject> - <grade>` reads back as that subject and
      grade, whatever the subject contains (the separator included), as long
      as it has no blank at either end; an int outside 1..5 is a range
      error. */
  lemma ParseLineOfEntry(subject: string, grade: int)
    requires subject != [] && IsTrimmed(subject) && InIntRange(grade)
    ensures ParseLine(subject + Separator + IntToString(grade))
      == if IsValidGrade(grade) then Graded(subject, grade) else Rejected(GradeOutOfRange)
  {
    var digits := IntToString(grade);
    assert IsTrimmed(digits) && HasNoBlank(digits);
    ParseIntRoundTrip(grade);
    ParseLineOfGradeText(subject, digits);
  }

  /** The loop of `createStudentFromFile` over the outcomes of the lines:
      a later grade for the same subject overwrites an earlier one, and the
      first rejected line ends the loop with its error. */
  function ApplyLines(results: seq<LineResult>, grades: map<string, int>): (r: Result<map<string, int>, ReadError>)
    ensures r.Ok? && AllGradesValid(grades) && AdmissibleGrades(results) ==> AllGradesValid(r.value)
    ensures r.Ok? ==> grades.Keys <= r.value.Keys
    decreases |results|
  {
    if |results| == 0 then Ok(grades)
    else
      match results[0]
      case Skipped => ApplyLines(results[1..], grades)
      case Graded(subject, grade) => ApplyLines(results[1..], grades[subject := grade])
      case Rejected(e) => Err(e)
  }


  /** The rejected outcome, if any, that comes first. */
  predicate FirstRejectionAt(results: seq<LineResult>, k: int) {
    0 <= k < |results| && results[k].Rejected?
    && forall j :: 0 <= j < k ==> !results[j].Rejected?
  }

  /** The loop fails exactly when some line is rejected, and then with the
      error of the first rejected line. */
  lemma {:induction false} ApplyLinesFails(results: seq<LineResult>, grades: map<string, int>)
    ensures ApplyLines(results, grades).Err? <==> exists k :: 0 <= k < |results| && results[k].Rejected?
    ensures forall k :: FirstRejectionAt(results, k) ==> ApplyLines(results, grades) == Err(results[k].error)
    decreases |results|
  {
    if |results| > 0 {
      var tail := results[1..];
      assert forall k :: 0 <= k < |tail| ==> tail[k] == results[k + 1];
      match results[0]
      case Skipped =>
        ApplyLinesFails(tail, grades);
        ShiftRejection(results);
      case Graded(s, g) =>
        ApplyLinesFails(tail, grades[s := g]);
        ShiftRejection(results);
      case Rejected(e) =>
        assert results[0].Rejected?;
    }
  }

  /** Past an outcome that is not a rejection, rejections of a sequence are
      those of its tail, one place later. */
  lemma ShiftRejection(results: seq<LineResult>)
    requires |results| > 0 && !results[0].Rejected?
    ensures (exists k :: 0 <= k < |results| && results[k].Rejected?)
      <==> (exists k :: 0 <= k < |results[1..]| && results[1..][k].Rejected?)
    ensures forall k :: FirstRejectionAt(results, k) ==> k > 0 && FirstRejectionAt(results[1..], k - 1)
  {
    var tail := results[1..];
    if k :| 0 <= k < |results| && results[k].Rejected? {
      assert tail[k - 1] == results[k];
    }
    forall k | FirstRejectionAt(results, k) ensures k > 0 && FirstRejectionAt(tail, k - 1) {
      assert forall j :: 0 <= j < k - 1 ==> tail[j] == results[j + 1];
    }
  }

  /** The outcome grades the given subject. */
  predicate Names(result: LineResult, subject: string) {
    result.Graded? && result.subject == subject
  }

  /** Reference definition of the grade a file gives a subject: the grade on
      the last line that names it, looking from the end of the file. */
  function LastGradeFor(results: seq<LineResult>, subject: string): (r: Option<int>)
    ensures r.Some? ==> exists k :: 0 <= k < |results| && results[k] == Graded(subject, r.value) && (forall j :: k < j < |results| ==> !Names(results[j], subject))
    ensures r.None? <==> forall k :: 0 <= k < |results| ==> !Names(results[k], subject)
    decreases |results|
  {
    if |results| == 0 then None
    else
      var last := results[|results| - 1];
      if Names(last, subject) then Some(last.grade)
      else LastGradeFor(results[..|results| - 1], subject)
  }

  /** The grade a map holds for a subject, if any. */
  function Lookup(grades: map<string, int>, subject: string): Option<int> {
    if subject in grades then Some(grades[subject]) else None
  }

  /** Looking from the end agrees with peeling off the first outcome. */
  lemma {:induction false} LastGradeForFirst(results: seq<LineResult>, subject: string)
    requires |results| > 0
    ensures var rest := LastGradeFor(results[1..], subject);
      LastGradeFor(results, subject) ==
        if rest.Some? then rest
        else if Names(results[0], subject) then Some(results[0].grade)
        else None
    decreases |results|
  {
    var n := |results|;
    if n > 1 {
      assert results[1..][..n - 2] == results[..n - 1][1..];
      assert results[1..][n - 2] == results[n - 1];
      assert results[..n - 1][0] == results[0];
      LastGradeForFirst(results[..n - 1], subject);
    } else {
      assert results[1..] == [];
      assert results[..0] == [];
    }
  }

  /** Last write wins: after the loop, a subject holds the grade of the last
      line that names it, and otherwise whatever it held before. */
  lemma {:induction false} ApplyLinesLastWriteWins(results: seq<LineResult>, grades: map<string, int>, subject: string)
    requires ApplyLines(results, grades).Ok?
    ensures var last := LastGradeFor(results, subject);
      Lookup(ApplyLines(results, grades).value, subject) == if last.Some? then last else Lookup(grades, subject)
    decreases |results|
  {
    if |results| > 0 {
      LastGradeForFirst(results, subject);
      match results[0]
      case Skipped =>
        ApplyLinesLastWriteWins(results[1..], grades, subject);
      case Graded(s, g) =>
        ApplyLinesLastWriteWins(results[1..], grades[s := g], subject);
    }
  }

  /** `createStudentFromFile`: the raw line count is checked before any line
      is looked at; on success the student carries the given name. */
  function CreateStudentFromFile(fullName: string, lines: seq<string>): (r: Result<Student, ReadError>)
    ensures |lines| < MinLines ==> r == Err(TooFewLines)
    ensures r.Ok? ==> r.value.fullName == fullName && AllGradesValid(r.value.grades)
  {
    if |lines| < MinLines then Err(TooFewLines)
    else
      var results := ParseLines(lines);
      assert AdmissibleGrades(results);
      match ApplyLines(results, map[])
      case Ok(grades) => Ok(Student(fullName, grades))
      case Err(e) => Err(e)
  }

  /** A file with enough lines is rejected exactly when one of its lines is,
      and then with the error of the first such line: a format error and a
      range error are told apart by which comes first. */
  lemma CreateStudentFirstRejection(fullName: string, lines: seq<string>, k: nat)
    requires |lines| >= MinLines
    requires k < |lines| && ParseLine(lines[k]).Rejected?
    requires forall j :: 0 <= j < k ==> !ParseLine(lines[j]).Rejected?
    ensures CreateStudentFromFile(fullName, lines) == Err(ParseLine(lines[k]).error)
  {
    var results := ParseLines(lines);
    assert FirstRejectionAt(results, k);
    ApplyLinesFails(results, map[]);
  }

  /** Without a rejected line, a file with enough lines is always accepted. */
  lemma CreateStudentAccepts(fullName: string, lines: seq<string>)
    requires |lines| >= MinLines
    requires forall k :: 0 <= k < |lines| ==> !ParseLine(lines[k]).Rejected?
    ensures CreateStudentFromFile(fullName, lines).Ok?
  {
    var results := ParseLines(lines);
    assert forall k :: 0 <= k < |results| ==> !results[k].Rejected?;
    ApplyLinesFails(results, map[]);
  }

  /** A successfully read student holds, for every subject, exactly the grade
      of the last line naming it, and no other subjects. */
  lemma CreateStudentGrades(fullName: string, lines: seq<string>, subject: string)
    requires CreateStudentFromFile(fullName, lines).Ok?
    ensures Lookup(CreateStudentFromFile(fullName, lines).value.grades, subject) == LastGradeFor(ParseLines(lines), subject)
  {
    ApplyLinesLastWriteWins(ParseLines(lines), map[], subject);
  }

  /** Outcomes that are all skips leave the grades as they were. */
  lemma {:induction false} ApplyLinesAllSkipped(results: seq<LineResult>, grades: map<string, int>)
    requires forall k :: 0 <= k < |results| ==> results[k].Skipped?
    ensures ApplyLines(results, grades) == Ok(grades)
    decreases |results|
  {
    if |results| > 0 {
      assert forall k :: 0 <= k < |results| - 1 ==> results[1..][k] == results[k + 1];
      ApplyLinesAllSkipped(results[1..], grades);
    }
  }

  /** Lines without a separator count toward the five-line minimum but add
      no grade: five or more such lines give a student without any grade. */
  lemma SkippedLinesGiveNoGrades(fullName: string, lines: seq<string>)
    requires |lines| >= MinLines
    requires forall k :: 0 <= k < |lines| ==> !Contains(Trim(lines[k]), Separator)
    ensures CreateStudentFromFile(fullName, lines) == Ok(Student(fullName, map[]))
  {
    var results := ParseLines(lines);
    assert forall k :: 0 <= k < |results| ==> results[k].Skipped? by {
      forall k | 0 <= k < |results| ensures results[k].Skipped? {
        assert results[k] == ParseLine(lines[k]);
      }
    }
    ApplyLinesAllSkipped(results, map[]);
  }

  // ---------------------------------------------------------------------------
  // Reading a directory
  // ---------------------------------------------------------------------------

  /** A directory entry as the file system reports it: its name, whether it
      is a regular file, and its lines (`None` when reading it fails). */
  datatype FileEntry = FileEntry(name: string, isFile: bool, content: Option<seq<string>>)

  /** What `new File(path)` reports: not a directory, or a directory whose
      `listFiles()` gives the entries (`None` for a `null` listing). */
  datatype Folder = NoDirectory | Directory(listing: Option<seq<FileEntry>>)

  /** The `IOException` raised for a path that is not a directory. */
  datatype IoError = NotADirectory

  /** `shouldProcessFile`. */
  predicate ShouldProcessFile(e: FileEntry) {
    e.isFile && EndsWith(e.name, TextExtension) && !EqualsIgnoreCase(e.name, ReportFileName)
  }

  /** The full name a file stands for: its name with every ".txt" removed. */
  function Identity(fileName: string): string {
    RemoveAll(fileName, TextExtension)
  }

  /** One iteration of the loop in `readStudentsFromDirectory`: the student
      read from an entry, or `None` when the entry is skipped. */
  function ReadEntry(e: FileEntry): (r: Option<Student>)
    ensures r.Some? ==> ShouldProcessFile(e) && r.value.fullName == Identity(e.name)
    ensures r.Some? ==> IsValidFullName(r.value.fullName) && AllGradesValid(r.value.grades)
  {
    if !ShouldProcessFile(e) then None
    else
      var fullName := Identity(e.name);
      if !IsValidFullName(fullName) then None
      else
        match e.content
        case None => None
        case Some(lines) =>
          match CreateStudentFromFile(fullName, lines)
          case Ok(st) => Some(st)
          case Err(_) => None
  }

  /** The loop of `readStudentsFromDirectory` over the listed entries: the
      students read from the entries that are not skipped, in listing order. */
  function ReadStudents(entries: seq<FileEntry>): (r: seq<Student>)
    ensures |r| <= |entries|
    ensures forall k :: 0 <= k < |r| ==> IsValidFullName(r[k].fullName) && AllGradesValid(r[k].grades)
  {
    Present(Apply(ReadEntry, entries))
  }

  /** `readStudentsFromDirectory`: only a path that is not a directory is an
      error; every per-file problem just skips that file. */
  function ReadStudentsFromDirectory(folder: Folder): (r: Result<seq<Student>, IoError>)
    ensures r.Err? <==> folder.NoDirectory?
    ensures folder == Directory(None) ==> r == Ok([])
    ensures r.Ok? ==> forall k :: 0 <= k < |r.value| ==> IsValidFullName(r.value[k].fullName)
    ensures folder.Directory? && folder.listing.Some? ==> r == Ok(ReadStudents(folder.listing.value))
  {
    match folder
    case NoDirectory => Err(NotADirectory)
    case Directory(None) => Ok([])
    case Directory(Some(entries)) => Ok(ReadStudents(entries))
  }

  /** Reading a listing that is split in two gives the students of the
      first part followed by those of the second. */
  lemma ReadStudentsAppend(a: seq<FileEntry>, b: seq<FileEntry>)
    ensures ReadStudents(a + b) == ReadStudents(a) + ReadStudents(b)
  {
    ApplyAppend(ReadEntry, a, b);
    PresentAppend(Apply(ReadEntry, a), Apply(ReadEntry, b));
  }

  /** A single entry yields its student if it is accepted, nothing otherwise. */
  lemma ReadOneEntry(e: FileEntry)
    ensures ReadStudents([e]) == if ReadEntry(e).Some? then [ReadEntry(e).value] else []
  {
    assert Apply(ReadEntry, [e]) == [ReadEntry(e)];
    PresentOfOne(ReadEntry(e));
  }

  /** A skipped entry is never fatal: it contributes nothing, and the
      entries around it are read as if it were absent. */
  lemma SkippedEntryContributesNothing(a: seq<FileEntry>, e: FileEntry, b: seq<FileEntry>)
    requires ReadEntry(e).None?
    ensures ReadStudents(a + [e] + b) == ReadStudents(a) + ReadStudents(b)
  {
    ReadStudentsAppend(a + [e], b);
    ReadStudentsAppend(a, [e]);
    ReadOneEntry(e);
    assert ReadStudents(a) + [] == ReadStudents(a);
  }

  /** An accepted entry contributes its student, in its place. */
  lemma AcceptedEntryContributesStudent(a: seq<FileEntry>, e: FileEntry, b: seq<FileEntry>)
    requires ReadEntry(e).Some?
    ensures ReadStudents(a + [e] + b) == ReadStudents(a) + [ReadEntry(e).value] + ReadStudents(b)
  {
    ReadStudentsAppend(a + [e], b);
    ReadStudentsAppend(a, [e]);
    ReadOneEntry(e);
  }

  /** No name ending in ".txt" can match the Cyrillic report name, so the
      report-name exclusion never removes a file the extension test keeps. */
  lemma ReportNeverMatchesTextFiles(name: string)
    requires EndsWith(name, TextExtension)
    ensures !EqualsIgnoreCase(name, ReportFileName)
  {
    if |name| == |ReportFileName| {
      var k := |name| - 1;
      assert name[k] == TextExtension[3];
      assert ReportFileName[k] == 'т';
      assert !SameLetterIgnoringCase(name[k], ReportFileName[k]);
    }
  }

  /** A file named after a student gives back that name as its identity,
      provided ".txt" appears only as the extension. */
  lemma IdentityOfTextFile(base: string)
    requires forall k :: 0 <= k < |base| ==> !OccursAt(base + TextExtension, TextExtension, k)
    ensures Identity(base + TextExtension) == base
  {
    RemoveAllOfSuffix(base, TextExtension);
  }

  /** Every ".txt" is removed, wherever it stands: the name is cut at an
      occurrence and the two sides are stripped independently. */
  lemma IdentityRemovesEveryExtension(a: string, b: string)
    ensures Identity(a + TextExtension + b) == Identity(a) + Identity(b)
  {
    assert FirstCharUnique(TextExtension);
    RemoveAllSplits(a, TextExtension, b);
  }

  /** A name with ".txt" in the middle as well as at the end, such as
      "Ivanov.txt Ivan Ivanovich.txt", stands for the name with both
      removed ("Ivanov Ivan Ivanovich"), provided the parts hold no dot. */
  lemma IdentityOfInnerExtension(a: string, b: string)
    requires forall k :: 0 <= k < |a| ==> a[k] != '.'
    requires forall k :: 0 <= k < |b| ==> b[k] != '.'
    ensures Identity(a + TextExtension + b + TextExtension) == a + b
  {
    assert a + TextExtension + b + TextExtension == a + TextExtension + (b + TextExtension + []);
    IdentityRemovesEveryExtension(a, b + TextExtension + []);
    IdentityRemovesEveryExtension(b, []);
    RemoveAllWithoutFirstChar(a, TextExtension);
    RemoveAllWithoutFirstChar(b, TextExtension);
    RemoveAllWithoutFirstChar([], TextExtension);
    assert b + [] == b;
  }

  /** A regular file `<name>.txt` passes the file filter and stands for
      `<name>`, provided ".txt" appears only as its extension. */
  lemma StudentFileIsProcessed(base: string, content: Option<seq<string>>)
    requires forall k :: 0 <= k < |base| ==> !OccursAt(base + TextExtension, TextExtension, k)
    ensures ShouldProcessFile(FileEntry(base + TextExtension, true, content))
    ensures Identity(base + TextExtension) == base
  {
    var name := base + TextExtension;
    assert name[|base|..] == TextExtension;
    ReportNeverMatchesTextFiles(name);
    IdentityOfTextFile(base);
  }

  /** A regular file `<name>.txt` with a valid full name is read exactly
      when its lines can be read and parsed, and then gives the student of
      that name with the parsed grades. */
  lemma ReadStudentFile(base: string, content: Option<seq<string>>)
    requires forall k :: 0 <= k < |base| ==> !OccursAt(base + TextExtension, TextExtension, k)
    requires IsValidFullName(base)
    ensures var r := ReadEntry(FileEntry(base + TextExtension, true, content));
      r.Some? <==> content.Some? && CreateStudentFromFile(base, content.value).Ok?
    ensures var r := ReadEntry(FileEntry(base + TextExtension, true, content));
      r.Some? ==> r.value == CreateStudentFromFile(base, content.value).value && r.value.fullName == base
  {
    StudentFileIsProcessed(base, content);
    ReadTextFile(FileEntry(base + TextExtension, true, content));
  }

  /** A regular file whose name ends in ".txt" and stands for a valid full
      name is read exactly when its lines can be read and parsed, and then
      gives the student built from those lines. The name may hold ".txt"
      elsewhere too; the identity removes every occurrence. */
  lemma ReadTextFile(e: FileEntry)
    requires e.isFile && EndsWith(e.name, TextExtension) && IsValidFullName(Identity(e.name))
    ensures ReadEntry(e).Some? <==> e.content.Some? && CreateStudentFromFile(Identity(e.name), e.content.value).Ok?
    ensures ReadEntry(e).Some? ==> ReadEntry(e).value == CreateStudentFromFile(Identity(e.name), e.content.value).value
  {
    ReportNeverMatchesTextFiles(e.name);
    assert ShouldProcessFile(e);
    if e.content.Some? {
      assert ReadEntry(e) == match CreateStudentFromFile(Identity(e.name), e.content.value)
        case Ok(st) => Some(st)
        case Err(_) => None;
    }
  }
}

=== FILE: student_ranking.dfy ===
/**
 * Ranking by personal average: the best students are all those whose
 * average equals the highest one, the worst all those whose average equals
 * the lowest one, each kept in list order.
 */
module StudentRanking {
  import opened StudentModel

  /** What `findMaxAverage` returns for an empty stream (`orElse(-1.0)`). */
  const NoMaximum: real := -1.0

  /** What `findMinAverage` returns for an empty stream (`orElse(6.0)`). */
  const NoMinimum: real := 6.0

  /** `r` keeps some of the elements of `xs`, in their order. */
  predicate IsSubsequence<T(==)>(r: seq<T>, xs: seq<T>)
    decreases |xs|
  {
    if |r| == 0 then true
    else if |xs| == 0 then false
    else (r[0] == xs[0] && IsSubsequence(r[1..], xs[1..])) || IsSubsequence(r, xs[1..])
  }

  /** `findMaxAverage`: the highest average, or the sentinel for no students. */
  ghost function MaxAverage(students: seq<Student>): (r: real)
    ensures |students| == 0 ==> r == NoMaximum
    ensures forall k :: 0 <= k < |students| ==> Average(students[k]) <= r
    decreases |students|
  {
    if |students| == 0 then NoMaximum
    else if |students| == 1 then Average(students[0])
    else
      var rest := MaxAverage(students[1..]);
      assert forall k :: 1 <= k < |students| ==> students[k] == students[1..][k - 1];
      if Average(students[0]) >= rest then Average(students[0]) else rest
  }

  /** `findMinAverage`: the lowest average, or the sentinel for no students. */
  ghost function MinAverage(students: seq<Student>): (r: real)
    ensures |students| == 0 ==> r == NoMinimum
    ensures forall k :: 0 <= k < |students| ==> r <= Average(students[k])
    decreases |students|
  {
    if |students| == 0 then NoMinimum
    else if |students| == 1 then Average(students[0])
    else
      var rest := MinAverage(students[1..]);
      assert forall k :: 1 <= k < |students| ==> students[k] == students[1..][k - 1];
      if Average(students[0]) <= rest then Average(students[0]) else rest
  }

  /** For a non-empty list the highest average belongs to some student, so
      the sentinel is never what comes back. */
  lemma {:induction false} MaxAverageAttained(students: seq<Student>)
    requires |students| > 0
    ensures exists k :: 0 <= k < |students| && Average(students[k]) == MaxAverage(students)
    decreases |students|
  {
    if |students| == 1 {
      assert Average(students[0]) == MaxAverage(students);
    } else {
      var rest := students[1..];
      MaxAverageAttained(rest);
      var k :| 0 <= k < |rest| && Average(rest[k]) == MaxAverage(rest);
      assert rest[k] == students[k + 1];
      if Average(students[0]) >= MaxAverage(rest) {
        assert Average(students[0]) == MaxAverage(students);
      } else {
        assert Average(students[k + 1]) == MaxAverage(students);
      }
    }
  }

  /** For a non-empty list the lowest average belongs to some student. */
  lemma {:induction false} MinAverageAttained(students: seq<Student>)
    requires |students| > 0
    ensures exists k :: 0 <= k < |students| && Average(students[k]) == MinAverage(students)
    decreases |students|
  {
    if |students| == 1 {
      assert Average(students[0]) == MinAverage(students);
    } else {
      var rest := students[1..];
      MinAverageAttained(rest);
      var k :| 0 <= k < |rest| && Average(rest[k]) == MinAverage(rest);
      assert rest[k] == students[k + 1];
      if Average(students[0]) <= MinAverage(rest) {
        assert Average(students[0]) == MinAverage(students);
      } else {
        assert Average(students[k + 1]) == MinAverage(students);
      }
    }
  }

  /** The test of `filterStudentsByAverage`: at least the target when looking
      for the maximum, at most the target otherwise. */
  ghost predicate Matches(st: Student, target: real, isMaximum: bool) {
    if isMaximum then Average(st) >= target else Average(st) <= target
  }

  /** `filterStudentsByAverage`: the students that match, in list order. */
  ghost function FilterByAverage(students: seq<Student>, target: real, isMaximum: bool): (r: seq<Student>)
    ensures IsSubsequence(r, students)
    ensures forall k :: 0 <= k < |r| ==> Matches(r[k], target, isMaximum)
    ensures forall k :: 0 <= k < |students| && Matches(students[k], target, isMaximum) ==> students[k] in r
    decreases |students|
  {
    if |students| == 0 then []
    else
      var rest := FilterByAverage(students[1..], target, isMaximum);
      assert forall k :: 1 <= k < |students| ==> students[k] == students[1..][k - 1];
      if Matches(students[0], target, isMaximum) then [students[0]] + rest else rest
  }

  /** The filter keeps every copy of a matching student and no copy of any
      other: repeated equal records are all kept, as the Java loop keeps
      them. */
  lemma {:induction false} FilterByAverageCounts(students: seq<Student>, target: real, isMaximum: bool)
    ensures forall x :: (multiset(FilterByAverage(students, target, isMaximum))[x]
                         == if Matches(x, target, isMaximum) then multiset(students)[x] else 0)
    decreases |students|
  {
    if |students| > 0 {
      FilterByAverageCounts(students[1..], target, isMaximum);
      assert students == [students[0]] + students[1..];
    }
  }

  /** `findBestStudents`. */
  ghost function FindBestStudents(students: seq<Student>): (r: seq<Student>)
    ensures r == [] <==> students == []
    ensures IsSubsequence(r, students)
    ensures forall k, j :: 0 <= k < |r| && 0 <= j < |students| ==> Average(students[j]) <= Average(r[k])
  {
    if |students| == 0 then []
    else
      var r := FilterByAverage(students, MaxAverage(students), true);
      assert r != [] by {
        MaxAverageAttained(students);
        var k :| 0 <= k < |students| && Average(students[k]) == MaxAverage(students);
        assert students[k] in r;
      }
      r
  }

  /** `findWorstStudents`. */
  ghost function FindWorstStudents(students: seq<Student>): (r: seq<Student>)
    ensures r == [] <==> students == []
    ensures IsSubsequence(r, students)
    ensures forall k, j :: 0 <= k < |r| && 0 <= j < |students| ==> Average(r[k]) <= Average(students[j])
  {
    if |students| == 0 then []
    else
      var r := FilterByAverage(students, MinAverage(students), false);
      assert r != [] by {
        MinAverageAttained(students);
        var k :| 0 <= k < |students| && Average(students[k]) == MinAverage(students);
        assert students[k] in r;
      }
      r
  }

  // ---------------------------------------------------------------------------
  // Reference definition and properties
  // ---------------------------------------------------------------------------

  /** The students whose average is exactly `target`, in list order. */
  ghost function TiedWith(students: seq<Student>, target: real): seq<Student>
    decreases |students|
  {
    if |students| == 0 then []
    else
      var rest := TiedWith(students[1..], target);
      if Average(students[0]) == target then [students[0]] + rest else rest
  }

  /** When matching the target and equalling it coincide on every student,
      the filter keeps exactly the students tied with the target. */
  lemma {:induction false} FilterKeepsTied(students: seq<Student>, target: real, isMaximum: bool)
    requires forall k :: 0 <= k < |students| ==> (Matches(students[k], target, isMaximum) <==> Average(students[k]) == target)
    ensures FilterByAverage(students, target, isMaximum) == TiedWith(students, target)
    decreases |students|
  {
    if |students| > 0 {
      var rest := students[1..];
      assert forall k :: 0 <= k < |rest| ==> rest[k] == students[k + 1];
      FilterKeepsTied(rest, target, isMaximum);
    }
  }

  /** The best students are exactly those tied with the highest average. */
  lemma BestAreTiedWithMaximum(students: seq<Student>)
    ensures FindBestStudents(students) == TiedWith(students, MaxAverage(students))
  {
    if |students| > 0 {
      FilterKeepsTied(students, MaxAverage(students), true);
    }
  }

  /** The worst students are exactly those tied with the lowest average. */
  lemma WorstAreTiedWithMinimum(students: seq<Student>)
    ensures FindWorstStudents(students) == TiedWith(students, MinAverage(students))
  {
    if |students| > 0 {
      FilterKeepsTied(students, MinAverage(students), false);
    }
  }

  /** A student is among the best exactly when no average beats theirs;
      everyone left out has an average strictly below the highest one. */
  lemma BestMembership(students: seq<Student>, k: nat)
    requires k < |students|
    ensures students[k] in FindBestStudents(students)
      <==> forall j :: 0 <= j < |students| ==> Average(students[j]) <= Average(students[k])
    ensures students[k] !in FindBestStudents(students) ==> Average(students[k]) < MaxAverage(students)
  {
    var best := FindBestStudents(students);
    MaxAverageAttained(students);
    if students[k] in best {
      var i :| 0 <= i < |best| && best[i] == students[k];
    }
  }

  /** A student is among the worst exactly when no average is below theirs;
      everyone left out has an average strictly above the lowest one. */
  lemma WorstMembership(students: seq<Student>, k: nat)
    requires k < |students|
    ensures students[k] in FindWorstStudents(students)
      <==> forall j :: 0 <= j < |students| ==> Average(students[k]) <= Average(students[j])
    ensures students[k] !in FindWorstStudents(students) ==> MinAverage(students) < Average(students[k])
  {
    var worst := FindWorstStudents(students);
    MinAverageAttained(students);
    if students[k] in worst {
      var i :| 0 <= i < |worst| && worst[i] == students[k];
    }
  }

  /** The filter keeps everything when every student matches. */
  lemma {:induction false} FilterKeepsAll(students: seq<Student>, target: real, isMaximum: bool)
    requires forall k :: 0 <= k < |students| ==> Matches(students[k], target, isMaximum)
    ensures FilterByAverage(students, target, isMaximum) == students
    decreases |students|
  {
    if |students| > 0 {
      var rest := students[1..];
      assert forall k :: 0 <= k < |rest| ==> rest[k] == students[k + 1];
      FilterKeepsAll(rest, target, isMaximum);
    }
  }

  /** When all averages are equal, every student is both best and worst. */
  lemma AllTiedAreBestAndWorst(students: seq<Student>)
    requires forall j, k :: 0 <= j < |students| && 0 <= k < |students| ==> Average(students[j]) == Average(students[k])
    ensures FindBestStudents(students) == students
    ensures FindWorstStudents(students) == students
  {
    if |students| > 0 {
      MaxAverageAttained(students);
      MinAverageAttained(students);
      FilterKeepsAll(students, MaxAverage(students), true);
      FilterKeepsAll(students, MinAverage(students), false);
    }
  }

  /** A student who is both best and worst means every average is the same. */
  lemma BestAndWorstMeetOnlyWhenAllTied(students: seq<Student>, st: Student)
    requires st in FindBestStudents(students) && st in FindWorstStudents(students)
    ensures forall j, k :: 0 <= j < |students| && 0 <= k < |students| ==> Average(students[j]) == Average(students[k])
  {
    var best := FindBestStudents(students);
    var worst := FindWorstStudents(students);
    var i :| 0 <= i < |best| && best[i] == st;
    var w :| 0 <= w < |worst| && worst[w] == st;
  }

  /** A student no one beats holds the highest average. */
  lemma MaxIsAttained(students: seq<Student>, i: nat, top: real)
    requires i < |students| && Average(students[i]) == top
    requires forall j :: 0 <= j < |students| ==> Average(students[j]) <= top
    ensures MaxAverage(students) == top
  {
    MaxAverageAttained(students);
  }

  /** A student no one is below holds the lowest average. */
  lemma MinIsAttained(students: seq<Student>, i: nat, bottom: real)
    requires i < |students| && Average(students[i]) == bottom
    requires forall j :: 0 <= j < |students| ==> bottom <= Average(students[j])
    ensures MinAverage(students) == bottom
  {
    MinAverageAttained(students);
  }

  /** Three students with strictly decreasing averages: the first alone is
      best and the last alone is worst (averages 14/3, 13/3 and 3). */
  lemma StrictRanking(students: seq<Student>)
    requires |students| == 3
    requires Average(students[0]) > Average(students[1]) > Average(students[2])
    ensures FindBestStudents(students) == [students[0]]
    ensures FindWorstStudents(students) == [students[2]]
  {
    var top := Average(students[0]);
    var bottom := Average(students[2]);
    assert MaxAverage(students) == top by {
      forall j | 0 <= j < |students| ensures Average(students[j]) <= top {
        assert j == 0 || j == 1 || j == 2;
      }
      MaxIsAttained(students, 0, top);
    }
    assert MinAverage(students) == bottom by {
      forall j | 0 <= j < |students| ensures bottom <= Average(students[j]) {
        assert j == 0 || j == 1 || j == 2;
      }
      MinIsAttained(students, 2, bottom);
    }
    BestAreTiedWithMaximum(students);
    WorstAreTiedWithMinimum(students);
    TiedOfThree(students, top);
    TiedOfThree(students, bottom);
    assert TiedWith(students, top) == [students[0]] + [] + [];
    assert TiedWith(students, bottom) == [] + [] + [students[2]];
  }

  /** Two students tied at the top are both best; a lower one alone is worst
      (averages 4.5, 4.5 and 3). */
  lemma TiedAtTheTop(students: seq<Student>, top: real, bottom: real)
    requires |students| == 3 && bottom < top
    requires Average(students[0]) == top && Average(students[1]) == top && Average(students[2]) == bottom
    ensures FindBestStudents(students) == [students[0], students[1]]
    ensures FindWorstStudents(students) == [students[2]]
  {
    assert MaxAverage(students) == top by {
      forall j | 0 <= j < |students| ensures Average(students[j]) <= top {
        assert j == 0 || j == 1 || j == 2;
      }
      MaxIsAttained(students, 0, top);
    }
    assert MinAverage(students) == bottom by {
      forall j | 0 <= j < |students| ensures bottom <= Average(students[j]) {
        assert j == 0 || j == 1 || j == 2;
      }
      MinIsAttained(students, 2, bottom);
    }
    BestAreTiedWithMaximum(students);
    WorstAreTiedWithMinimum(students);
    TiedOfThree(students, top);
    TiedOfThree(students, bottom);
    assert TiedWith(students, top) == [students[0]] + [students[1]] + [];
    assert TiedWith(students, bottom) == [] + [] + [students[2]];
  }

  /** A single student if tied with the target, else nobody. */
  ghost function TiedOne(st: Student, target: real): seq<Student> {
    if Average(st) == target then [st] else []
  }

  /** The students of a three-element list tied with a target. */
  lemma TiedOfThree(students: seq<Student>, target: real)
    requires |students| == 3
    ensures TiedWith(students, target)
      == TiedOne(students[0], target) + TiedOne(students[1], target) + TiedOne(students[2], target)
  {
    var s1 := students[1..];
    var s2 := s1[1..];
    assert s2[1..] == [];
    assert s1[0] == students[1] && s2[0] == students[2];
    assert TiedWith(s2, target) == TiedOne(students[2], target);
    assert TiedWith(s1, target) == TiedOne(students[1], target) + TiedOne(students[2], target);
  }
}

=== FILE: whitespace.dfy ===
/**
 * The two whitespace notions the Java code relies on: `String.trim()`,
 * which strips every character up to U+0020 from both ends, and
 * `String.split("\\s+")`, which cuts at runs of the regular-expression
 * class `\s` (space, tab, line feed, vertical tab, form feed, carriage
 * return).
 */
module Whitespace {
  import opened Sequences

  /** A character `String.trim()` removes: any code point up to U+0020. */
  predicate IsTrimmable(c: char) {
    c <= ' '
  }

  /** A character matched by the regular-expression class `\s`. */
  predicate IsSpace(c: char) {
    c == ' ' || c == '\t' || c == '\n' || c == '\r' || c as int == 0x0B || c as int == 0x0C
  }

  predicate AllTrimmable(s: string) {
    forall k :: 0 <= k < |s| ==> IsTrimmable(s[k])
  }

  predicate NoSpace(s: string) {
    forall k :: 0 <= k < |s| ==> !IsSpace(s[k])
  }

  predicate AllSpace(s: string) {
    forall k :: 0 <= k < |s| ==> IsSpace(s[k])
  }

  /** Every `\s` character is also removed by `trim()`. */
  lemma SpaceIsTrimmable(c: char)
    ensures IsSpace(c) ==> IsTrimmable(c)
  {
  }

  // ---------------------------------------------------------------------------
  // trim()
  // ---------------------------------------------------------------------------

  /** Drops the leading trimmable characters (the first loop of `trim()`). */
  function TrimStart(s: string): (r: string)
    ensures |r| <= |s| && r == s[|s| - |r|..]
    ensures forall k :: 0 <= k < |s| - |r| ==> IsTrimmable(s[k])
    ensures r == [] || !IsTrimmable(r[0])
  {
    if |s| > 0 && IsTrimmable(s[0]) then TrimStart(s[1..]) else s
  }

  /** Drops the trailing trimmable characters (the second loop of `trim()`). */
  function TrimEnd(s: string): (r: string)
    ensures |r| <= |s| && r == s[..|r|]
    ensures forall k :: |r| <= k < |s| ==> IsTrimmable(s[k])
    ensures r == [] || !IsTrimmable(r[|r| - 1])
  {
    if |s| > 0 && IsTrimmable(s[|s| - 1]) then TrimEnd(s[..|s| - 1]) else s
  }

  /** Java's `String.trim()`. */
  function Trim(s: string): (r: string)
    ensures |r| <= |s|
    ensures exists i, j :: 0 <= i <= j <= |s| && r == s[i..j]
    ensures r != [] ==> !IsTrimmable(r[0]) && !IsTrimmable(r[|r| - 1])
  {
    var t := TrimStart(s);
    var r := TrimEnd(t);
    assert r == s[|s| - |t|..|s| - |t| + |r|];
    r
  }

  /** `trim()` returns the empty string exactly for blank input. */
  lemma TrimEmptyExactlyWhenBlank(s: string)
    ensures Trim(s) == [] <==> AllTrimmable(s)
  {
    var t := TrimStart(s);
    var d := |s| - |t|;
    if TrimEnd(t) == [] {
      assert t == [];
    }
  }

  /** A string is "trimmed" when it is empty or starts and ends with a
      character `trim()` keeps. */
  predicate IsTrimmed(m: string) {
    m == [] || (!IsTrimmable(m[0]) && !IsTrimmable(m[|m| - 1]))
  }

  lemma {:induction false} TrimStartOfPadded(p: string, m: string)
    requires AllTrimmable(p)
    requires m == [] || !IsTrimmable(m[0])
    ensures TrimStart(p + m) == m
    decreases |p|
  {
    if p == [] {
      assert p + m == m;
      if m != [] {
        assert !IsTrimmable(m[0]);
      }
    } else {
      assert (p + m)[1..] == p[1..] + m;
      assert AllTrimmable(p[1..]) by {
        forall k | 0 <= k < |p[1..]| ensures IsTrimmable(p[1..][k]) {
          assert p[1..][k] == p[k + 1];
        }
      }
      TrimStartOfPadded(p[1..], m);
    }
  }

  lemma {:induction false} TrimEndOfPadded(m: string, q: string)
    requires AllTrimmable(q)
    requires m == [] || !IsTrimmable(m[|m| - 1])
    ensures TrimEnd(m + q) == m
    decreases |q|
  {
    if q == [] {
      assert m + q == m;
    } else {
      var n := |m + q|;
      var q0 := q[..|q| - 1];
      assert (m + q)[n - 1] == q[|q| - 1];
      assert (m + q)[..n - 1] == m + q0;
      assert AllTrimmable(q0) by {
        forall k | 0 <= k < |q0| ensures IsTrimmable(q0[k]) {
          assert q0[k] == q[k];
        }
      }
      TrimEndOfPadded(m, q0);
    }
  }

  /** `trim()` returns exactly the core of a string padded on both sides by
      trimmable characters. Together with TrimDecomposes this characterises
      `trim()` completely. */
  lemma TrimOfPadded(p: string, m: string, q: string)
    requires AllTrimmable(p) && AllTrimmable(q) && IsTrimmed(m)
    ensures Trim(p + m + q) == m
  {
    if m == [] {
      assert p + m + q == p + q;
      assert AllTrimmable(p + q) by {
        forall k | 0 <= k < |p + q| ensures IsTrimmable((p + q)[k]) {
          if k < |p| { assert (p + q)[k] == p[k]; } else { assert (p + q)[k] == q[k - |p|]; }
        }
      }
    } else {
      assert p + m + q == p + (m + q);
      TrimStartOfPadded(p, m + q);
      TrimEndOfPadded(m, q);
    }
  }

  /** `trim()` leaves a trimmed string alone. */
  lemma TrimOfTrimmed(m: string)
    requires IsTrimmed(m)
    ensures Trim(m) == m
  {
    assert [] + m + [] == m;
    TrimOfPadded([], m, []);
  }

  lemma TrimStartSplits(s: string)
    ensures var t := TrimStart(s);
      AllTrimmable(s[..|s| - |t|]) && s == s[..|s| - |t|] + t
  {
    var t := TrimStart(s);
    var p := s[..|s| - |t|];
    assert s == p + t;
    assert AllTrimmable(p) by {
      forall k | 0 <= k < |p| ensures IsTrimmable(p[k]) {
        assert p[k] == s[k];
      }
    }
  }

  lemma TrimEndSplits(t: string)
    ensures var r := TrimEnd(t);
      AllTrimmable(t[|r|..]) && t == r + t[|r|..]
  {
    var r := TrimEnd(t);
    var q := t[|r|..];
    assert t == r + q;
    assert AllTrimmable(q) by {
      forall k | 0 <= k < |q| ensures IsTrimmable(q[k]) {
        assert q[k] == t[k + |r|];
      }
    }
  }

  /** Every string is its trimmed core padded by trimmable characters. */
  lemma TrimDecomposes(s: string) returns (p: string, q: string)
    ensures AllTrimmable(p) && AllTrimmable(q) && IsTrimmed(Trim(s))
    ensures s == p + Trim(s) + q
  {
    var t := TrimStart(s);
    var r := TrimEnd(t);
    assert Trim(s) == r;
    p := s[..|s| - |t|];
    q := t[|r|..];
    assert AllTrimmable(p) && s == p + t by { TrimStartSplits(s); }
    assert AllTrimmable(q) && t == r + q by { TrimEndSplits(t); }
    ConcatAssociative(p, r, q);
  }

  lemma AppendTrimmable(a: string, b: string)
    requires AllTrimmable(a) && AllTrimmable(b)
    ensures AllTrimmable(a + b)
  {
    forall k | 0 <= k < |a + b| ensures IsTrimmable((a + b)[k]) {
      if k < |a| { assert (a + b)[k] == a[k]; } else { assert (a + b)[k] == b[k - |a|]; }
    }
  }

  /** Surrounding a string with more trimmable characters does not change
      what `trim()` returns. */
  lemma TrimIgnoresPadding(p: string, s: string, q: string)
    requires AllTrimmable(p) && AllTrimmable(q)
    ensures Trim(p + s + q) == Trim(s)
  {
    var p', q' := TrimDecomposes(s);
    var m := Trim(s);
    AppendTrimmable(p, p');
    AppendTrimmable(q', q);
    Regroup(p, p', m, q', q);
    TrimOfPadded(p + p', m, q' + q);
  }

  // ---------------------------------------------------------------------------
  // split("\\s+")
  // ---------------------------------------------------------------------------

  /** Length of the longest prefix of `s` without `\s` characters. */
  function WordLength(s: string): (n: nat)
    ensures n <= |s|
    ensures NoSpace(s[..n])
    ensures n < |s| ==> IsSpace(s[n])
  {
    if |s| == 0 || IsSpace(s[0]) then 0 else 1 + WordLength(s[1..])
  }

  /** Length of the longest prefix of `s` made of `\s` characters. */
  function GapLength(s: string): (n: nat)
    ensures n <= |s|
    ensures AllSpace(s[..n])
    ensures n < |s| ==> !IsSpace(s[n])
  {
    if |s| == 0 || !IsSpace(s[0]) then 0 else 1 + GapLength(s[1..])
  }

  /** The pieces `Pattern.split` collects before trailing empty strings are
      dropped: the text before each maximal `\s` run, then the rest. A run at
      the very start yields a leading empty piece. */
  function SplitPieces(s: string): (ps: seq<string>)
    ensures |ps| >= 1
    decreases |s|
  {
    var i := WordLength(s);
    if i == |s| then [s]
    else
      var j := i + GapLength(s[i..]);
      [s[..i]] + SplitPieces(s[j..])
  }

  /** Removes the empty strings at the end of a split result. */
  function DropTrailingEmpty(ps: seq<string>): (r: seq<string>)
    ensures r <= ps
    ensures r == [] || r[|r| - 1] != []
    ensures forall k :: |r| <= k < |ps| ==> ps[k] == []
  {
    if |ps| > 0 && ps[|ps| - 1] == [] then DropTrailingEmpty(ps[..|ps| - 1]) else ps
  }

  /** Java's `s.split("\\s+")`: without any match the result is `[s]`;
      otherwise the pieces with trailing empty strings removed. */
  function Split(s: string): seq<string> {
    if WordLength(s) == |s| then [s] else DropTrailingEmpty(SplitPieces(s))
  }

  /** Reference definition: the maximal runs of non-`\s` characters, in order. */
  function Words(s: string): (ws: seq<string>)
    ensures forall k :: 0 <= k < |ws| ==> ws[k] != [] && NoSpace(ws[k])
    decreases |s|
  {
    if |s| == 0 then []
    else if IsSpace(s[0]) then Words(s[1..])
    else
      var n := WordLength(s);
      [s[..n]] + Words(s[n..])
  }

  lemma {:induction false} WordsSkipSpaces(u: string, k: nat)
    requires k <= |u| && AllSpace(u[..k])
    ensures Words(u) == Words(u[k..])
    decreases k
  {
    if k > 0 {
      assert u[..k][0] == u[0];
      var v := u[1..][..k - 1];
      assert AllSpace(v) by {
        forall i | 0 <= i < |v| ensures IsSpace(v[i]) {
          assert v[i] == u[..k][i + 1];
        }
      }
      WordsSkipSpaces(u[1..], k - 1);
      assert u[1..][k - 1..] == u[k..];
    }
  }

  lemma {:induction false} PiecesOfTrimmed(t: string)
    requires t != [] && !IsSpace(t[0]) && !IsSpace(t[|t| - 1])
    ensures SplitPieces(t) == Words(t)
    decreases |t|
  {
    var i := WordLength(t);
    if i == |t| {
      assert t[..i] == t;
      assert t[i..] == [];
    } else {
      var g := GapLength(t[i..]);
      var j := i + g;
      assert t[j..] == t[i..][g..];
      assert t[j..][0] == t[i..][g];
      assert t[j..][|t[j..]| - 1] == t[|t| - 1];
      PiecesOfTrimmed(t[j..]);
      WordsSkipSpaces(t[i..], g);
    }
  }

  /** On a trimmed, non-empty string, `split("\\s+")` yields exactly the
      maximal runs of non-`\s` characters. */
  lemma SplitOfTrimmed(t: string)
    requires t != [] && !IsSpace(t[0]) && !IsSpace(t[|t| - 1])
    ensures Split(t) == Words(t)
  {
    var i := WordLength(t);
    if i == |t| {
      assert t[..i] == t;
      assert t[i..] == [];
    } else {
      PiecesOfTrimmed(t);
    }
  }

  /** A word followed by a gap contributes that word and nothing else. */
  lemma WordsOfWordThenGap(w: string, g: string, rest: string)
    requires w != [] && NoSpace(w) && AllSpace(g)
    requires g != [] || rest == []
    ensures Words(w + g + rest) == [w] + Words(rest)
  {
    var s := w + g + rest;
    var n := WordLength(s);
    assert forall k :: 0 <= k < |w| ==> s[k] == w[k];
    assert |s| > |w| ==> s[|w|] == g[0];
    assert n == |w|;
    assert s[..n] == w;
    assert s[n..] == g + rest;
    WordsSkipSpaces(g + rest, |g|);
    assert (g + rest)[|g|..] == rest;
  }
}
